=== FILE: README.md ===
# jq-table-sort: a Dafny model of the click-to-sort engine

jq-table-sort makes every `<table table-sort>` sortable by clicking a header cell. Each table
carries a `status` object: whether it was initialized, whether its first row is a header row
(`exclude_first_row`), the sort direction `srt` (0 original order, 1 ascending, 2 descending),
the header cell holding the sort marker (`el`), and the cached row records (`data`). A click
updates the direction and the marker, builds the records once (tagging every body row with its
position as `tableSortId`, reading each cell through the reader installed by `setReadDataFunc`),
sorts the records in place, and moves the body rows, one `after`/`prepend` at a time, into the
order of the records.

The model is a set of pure functions over immutable values, one module per part of `index.js`:

| module | file | models |
|---|---|---|
| `Common` | common.dfy | `Option`, `Result` and the exceptions the code can run into |
| `Values` | values.dfy | cell values and the order `<`/`>` puts on them |
| `Tables` | tables.dfy | rows, cells, records, the `status` object and a table |
| `Marker` | marker.dfy | the direction/marker state machine (lines 81-86) |
| `Compare` | compare.dfy | the comparator handed to `data.sort` (lines 92-111) |
| `Sort` | sort.dfy | the sort itself, as a stable insertion sort |
| `Build` | build.dfy | `initTableData` and `setReadDataFunc` (lines 46-66, 137-140) |
| `Reordering` | reordering.dfy | the row reconciliation loop (lines 113-130) |
| `Engine` | engine.dfy | the whole mousedown handler (lines 77-130) |
| `Registry` | registry.dfy | `initAll` (lines 26-44) |
| `Parent` | parent.dfy | `findParentTag` (lines 19-23) |

Modelling choices:

- A header cell is identified by its column index: `initAll` binds the handler of cell `j` of
  the header row with index `j`, and the marked cell `el` is always one of these.
- Marker spans are a multiset of column indices. The code removes the first marker span of the
  marked cell and, when the new direction is not 0, appends one to the clicked cell.
- An exception is an `Outcome` holding the table as it was when the exception was thrown, and
  the error. In JavaScript the mutations made before a throw persist; the model keeps them.
- An absent `status` object behaves like `Fresh()`, and an unset `srt` behaves like 0.
- `after` and `prepend` move an existing row: it is removed, then inserted at its new position.
- The reader is a parameter (`Config`). Calling the reader while none is installed throws. The
  code does this even though its header comment presents the reader as optional; the model
  follows the code. Only a reader that returns `undefined` falls back to `innerText`.
- `findParentTag` reads `tagName` of the last node on the chain too. For an attached element the
  chain ends at the document node, which has no tag name, so a search without a match throws
  instead of answering `undefined`. The model follows the code.

## Model

| member | source | states |
|---|---|---|
| Values.LessIsStrictTotalOrder | index.js:101-104 | the value order is irreflexive, asymmetric, transitive and total, so `>` and `<` never both hold and one holds unless the values are equal |
| Marker.Advance | index.js:84 | one step of the cycle always changes the direction, and from 0 (or unset) gives 1 |
| Marker.AdvanceHasPeriodThree | index.js:84 | three steps of the cycle give back the direction, and one or two steps never do |
| Marker.Press | index.js:83-85 | clicking another cell than the marked one always gives ascending; clicking the marked cell goes 1 to 2, 2 to 0, and 0 to 1; the clicked cell is marked exactly when the new direction is not 0; no other status field changes |
| Marker.ThreePresses | index.js:83-85 | three clicks on the marked cell give back the same status; three clicks on another cell end in direction 0 with no marked cell |
| Marker.UpdateMarkers | index.js:81-86 | the update throws exactly when the marked cell has no marker span; otherwise the status is the pressed one and only markers and status change; from agreeing markers it never throws, keeps them agreeing, leaves at most one marker, and that marker is on the clicked cell when the direction is not 0 |
| Compare.CompareCellsMeaning | index.js:94-107 | the comparator returns -1, 0 or 1; it returns 0 exactly on equal values or two absent ones; it returns -1 and 1 exactly as the reference order (present before absent, then by value) says, with the roles swapped when descending |
| Compare.CompareCellsAntisymmetric | index.js:94-107 | swapping the two records negates the comparator in every direction |
| Compare.AbsentPlacement | index.js:96-107 | an absent value compares after a present one ascending and before it descending |
| Compare.OrderIsTotalPreorder | index.js:92-111 | the comparator given to the sort is total and transitive, and its ties are symmetric and transitive |
| Compare.UnsortedOrdersById | index.js:110 | under direction 0 one record may precede another exactly when its id is not larger, and two tie exactly when their ids are equal |
| Sort.Insert | index.js:93-110 | inserting a record adds exactly that record and keeps a sorted sequence sorted |
| Sort.SortRecords | index.js:93-110 | the sorted data is a permutation of the data and every record may precede every later one |
| Sort.SortIsStable | index.js:93-110 | for every record, the records that tie with it appear in the same order before and after the sort |
| Sort.IdOrderIsUnique | index.js:110 | a permutation of id-increasing data that is ordered by id is that same data |
| Sort.RestoresBuildOrder | index.js:110 | sorting any permutation of freshly built data under direction 0 gives back the data as built |
| Sort.AbsentLastWhenAscending | index.js:96-101 | in data sorted ascending the records without a value in the column form a suffix |
| Sort.AbsentFirstWhenDescending | index.js:106 | in data sorted descending the records without a value in the column form a prefix |
| Sort.DescendingIsReversedAscending | index.js:106 | data is ordered descending exactly when its reverse is ordered ascending |
| Build.FirstWithCells | index.js:56-58 | the first row at or after a position that has a cell, or the end: all rows before it have no cell |
| Build.Tagging | index.js:53-63 | the build loop tags row `k` with `k`, pushes record `k` with the row's values, and throws exactly when it calls an unset reader, after tagging that row and before pushing its record |
| Build.TaggingFromStart | index.js:53-63 | the build loop from the first row throws exactly when no reader is installed and some row has a cell; then the rows up to that row are tagged and only value-less records before it were pushed; otherwise every row is tagged and record `k` holds row `k`'s values |
| Build.Rebuild | index.js:50-64 | a build replaces the data, changes nothing but the body tags and the data, drops the header row's record only when the build completes, and keeps the unshifted records pushed before an exception |
| Build.InitTableData | index.js:46-66 | cached data is reused unless a rebuild is forced; a build tags every row with its position and caches records whose ids are those positions in body order, without the id-0 record when the first row is the header; with no reader it throws at the first row with a cell, keeping the records pushed so far; only the body tags and the data change |
| Build.SetReadDataFunc | index.js:137-140 | after installing a reader no build throws and every rebuilt record reads its cells through the new reader |
| Reordering.RemoveAt | index.js:120 | removing the row at a position keeps every other row, in order, and loses exactly that row |
| Reordering.InsertAt | index.js:120 | inserting a row puts it at the position, shifts the rows behind it, and adds exactly that row |
| Reordering.MoveBackMoves | index.js:120 | moving a row to an earlier position puts it there, shifts the rows in between one step back, and leaves the rest and the set of rows as they were |
| Reordering.MoveForwardMoves | index.js:120 | moving a row to a later position puts it there, shifts the rows in between one step forward, and leaves the rest and the set of rows as they were |
| Reordering.AfterMoves | index.js:120-124 | `anchor.after(el)` moves the element right behind the anchor, keeps the same rows, and keeps the order of all others; a row placed after itself leaves the body unchanged |
| Reordering.PrependMoves | index.js:126 | `tbody.prepend(el)` moves the element to the front, keeps the same rows, and keeps the order of all others |
| Reordering.IndexOf | index.js:120 | the position of a row in the body is its first occurrence, and there is none exactly when the row is not in the body |
| Reordering.ScanFindsLast | index.js:118 | the lookup loop ends on the last row of the snapshot carrying the id, and on nothing exactly when no row carries it |
| Reordering.LastWithId | index.js:118 | the row found is a row of the snapshot carrying the id, and there is none only when no row carries it |
| Reordering.AnchorAtPrefixEnd | index.js:119-120 | in a loop state meeting the invariant, after the first iteration the previously placed row is found at the end of the placed prefix, so `prev.after(el)` puts the row right behind it |
| Reordering.HeaderAtFront | index.js:122-124 | before the first iteration, when the first row is excluded as the header and the body agrees with the data, a row tagged 0 exists and is found at the front, so `header.after(el)` never throws |
| Reordering.Reconcile | index.js:114-130 | with fewer than two records no row moves |
| Reordering.PlaceFromKeepsRows | index.js:116-130 | whatever the data, the loop only moves rows: it ends with the rows it started with, exception or not |
| Reordering.PlaceFromOrders | index.js:116-130 | from any loop state meeting the loop invariant, the loop finishes without exception with the rows in the wanted order |
| Reordering.ReconcileOrders | index.js:114-130 | when the body agrees with the data, the loop never throws, the body becomes the header row (if the first row is the header) followed by the rows of the records in data order, no row is created or lost, and the header row stays first |
| Engine.BuildSyncs | index.js:53-64 | a fresh build leaves the body tags equal to the header tag followed by the record ids, all different, with increasing ids |
| Engine.SortAndPlaceOrders | index.js:91-130 | sorting and reordering keeps the body in step with the data: the data becomes a stable sorted permutation of itself and the rows follow it |
| Engine.ClickSortsAndReorders | index.js:77-130 | a click on a consistent table with data or a reader never throws; the status is the pressed one, the data is a stable sorted permutation of the data before the sort, the body holds the same rows in data order, markers and data stay consistent, and nothing else changes |
| Engine.ClickKeeps | index.js:77-130 | a click keeps the records and rows of the table up to order and sets the pressed direction and marked cell |
| Engine.UnsortedClickRestores | index.js:109-130 | a click that ends in direction 0 puts back the data as first built and every row at its build position |
| Engine.TwoClicksDescend | index.js:81-130 | with a reader installed, on a table with agreeing markers whose data is not built yet, two clicks on an unmarked cell never throw and leave it marked descending with the same records and rows |
| Engine.ThreeClicksRestoreOrder | index.js:77-130 | with a reader installed, on a table with agreeing markers whose data is not built yet, three clicks on an unmarked cell never throw and end in direction 0 with no marker, the data as first built, and every body row back at its original position |
| Engine.CachedDataIsNeverRebuilt | index.js:89 | once data is cached a click never rebuilds it: the data afterwards is a permutation of the data before |
| Engine.ReaderUnsetThrows | index.js:49-63 | without a reader the first click on a table with a body cell throws after updating direction and marker, caching only value-less records of the rows before the first row with a cell |
| Registry.Columns | index.js:37-39 | the header loop binds each column below the cell count exactly once |
| Registry.InitTable | index.js:29-42 | an initialized table is left alone; otherwise the first row is flagged as header when there is no `thead tr`, each header cell gets one more handler, the table becomes initialized, and nothing else changes |
| Registry.InitAll | index.js:26-44 | every matched table ends initialized, already initialized tables are unchanged, no body or marker changes, each table not yet initialized gets the header flag when it has no `thead tr` and one more handler per header cell, and nothing but the handlers, the flag and `initialized` changes |
| Registry.InitAllIsIdempotent | index.js:30 | running `initAll` again on the tables it produced changes nothing |
| Registry.FreshTableBindsEachColumnOnce | index.js:29-41 | on a table without a status, the header flag is set exactly when there is no `thead tr`, and each header column gets exactly one handler |
| Registry.RepeatedInitAllBindsOnce | index.js:26-44 | however often `initAll` runs, each column of a fresh table is bound at most once |
| Parent.UpperIsIdempotent | index.js:20-22 | upper-casing twice is upper-casing once, and leaves no lower-case letter |
| Parent.FirstStop | index.js:21 | the reference stopping point: every node before it is a non-matching element, and it is the end, a node without a tag name, or a matching element |
| Parent.FirstStopIsFirst | index.js:21 | any position that every earlier node passes and that stops the walk is the reference stopping point |
| Parent.Climb | index.js:21-22 | the walk from a position stops at the first matching element, answers none exactly when every later node is a non-matching element, and throws exactly when a node without a tag name comes first |
| Parent.FindParentTagMeaning | index.js:19-23 | the answer is position `k` exactly when `k` is the first element whose tag equals the name ignoring case with only elements before it, none exactly when every node is a non-matching element, and an exception exactly when a node without a tag name is reached first |
| Parent.FindParentTagIgnoresCase | index.js:20-22 | asking for a tag name or for its upper-cased form gives the same answer |

## Left out

- The jq-min `$` queries and `.css`: a library whose code is not part of this model. Query results are given as sequences (the body rows, the matched tables, the header cell counts).
- The `selectstart` listener, `stopPropagation`, `return false` and event binding in general: event plumbing. A bound handler is counted per column.
- The marker markup and glyph strings (line 86): rendering only. A marker is a column index in a multiset.
- The `DOMContentLoaded` bootstrap, the `typeof $` check (dead code because of the `'undifined'` typo at line 143), `console.error` and the `window.tableSort` export: I/O and global wiring.
- JavaScript's mixed-type `<`/`>` coercion, `NaN` and floating point: values are a tagged number-or-text with a total order; numbers order before texts.
- Values.LessIsStrictTotalOrder: strings compare by character code, which matches JavaScript's UTF-16 comparison only for characters in the Basic Multilingual Plane.
- The algorithm of `Array.prototype.sort`: a stable insertion sort stands in; the proved facts (permutation, order, stability) determine the result of any stable sort.
- The table argument passed to the reader: it is fixed for a build and folded into the reader function.
- A reader returning `null` or other non-`undefined` falsy values: the reader returns a value or nothing.
- Reordering.Place: `after(undefined)`/`prepend(undefined)` insert a text node in the DOM; the model stops with `RowMissing` instead. On bodies that agree with their data this case never arises (Reordering.ReconcileOrders).
- Parent.Upper: upper-casing covers ASCII letters only; tag names are ASCII.
- DOM object identity: a row is a value, so `after`/`prepend` locate the anchor and the moved row by equality. On the bodies the handler works on every row carries a distinct tag, so equal rows are the same row.
- A reader that throws: the reader is a total function from a cell to an optional value.
- Several `tbody` elements, `td` cells of nested tables, rows of `tfoot`, and a header cell whose enclosing table is not the table it was bound for: the model has one body per table.
- The unused `tr` lookup at line 72: its result is never read.
- A public per-table sort call: the file has none; sorting happens only on `mousedown`.
- The dependency of `init` on `findParentTag` for `tbl`: the handler is given its table directly.

=== FILE: build.dfy ===
/** `initTableData` and `setReadDataFunc`: tagging the body rows with their position and
    caching one record of cell values per row (index.js:46-66, 137-140). */
module Build {
  import opened Common
  import opened Values
  import opened Tables

  /** `setReadDataFunc`'s single slot: the reader installed last, `undefined` until then. */
  datatype Config = Config(reader: Option<CellReader>)

  /** One cell's value: what the reader returns, or the rendered text when it returns
      undefined (index.js:58-59). */
  function ReadCell(c: Cell, rd: CellReader): Value {
    match rd(c)
    case Some(v) => v
    case None => Text(c.innerText)
  }

  function ReadCells(cells: seq<Cell>, rd: CellReader): (vs: seq<Value>)
    ensures |vs| == |cells|
    ensures forall j :: 0 <= j < |cells| ==> vs[j] == ReadCell(cells[j], rd)
  {
    seq(|cells|, j requires 0 <= j < |cells| => ReadCell(cells[j], rd))
  }

  /** The values recorded for a row's cells; without a reader only a row without cells gets
      this far, and its record has no values. */
  function RowValues(cells: seq<Cell>, reader: Option<CellReader>): seq<Value> {
    match reader
    case Some(rd) => ReadCells(cells, rd)
    case None => []
  }

  /** The position of the first row at or after `i` that has a cell, or `|body|`. */
  function FirstWithCells(body: seq<Row>, i: nat): (f: nat)
    requires i <= |body|
    ensures i <= f <= |body|
    ensures forall k :: i <= k < f ==> |body[k].cells| == 0
    ensures f < |body| ==> |body[f].cells| > 0
    decreases |body| - i
  {
    if i == |body| || |body[i].cells| > 0 then i else FirstWithCells(body, i + 1)
  }

  /** Where the build loop stops: at the end, or at the first call of a reader that is not set. */
  function Stop(body: seq<Row>, reader: Option<CellReader>, i: nat): nat
    requires i <= |body|
  {
    if reader.Some? then |body| else FirstWithCells(body, i)
  }

  /** `rows` is `body[i..]` with every row up to position `f` tagged with its position. */
  ghost predicate TaggedThrough(rows: seq<Row>, body: seq<Row>, i: nat, f: nat) {
    && |rows| + i == |body|
    && forall k :: i <= k < |body| ==> rows[k - i] == if k <= f then body[k].(sortId := Some(k)) else body[k]
  }

  /** Record `k` of `data` holds row `k + h` of `body`: that position as its id, and the row's values. */
  ghost predicate RecordsFrom(data: seq<Record>, body: seq<Row>, reader: Option<CellReader>, h: nat) {
    && |data| + h <= |body|
    && forall k :: 0 <= k < |data| ==> data[k] == Record(k + h, RowValues(body[k + h].cells, reader))
  }

  /** The build loop's result for `body[i..]`: the rows (tagged up to and including the row
      where it stopped), the records pushed, and whether `rd` threw. */
  datatype Built = Built(rows: seq<Row>, records: seq<Record>, thrown: Option<Error>)

  /** Lines 53-63 from row `i` on: tag row `k` with `k`, read its cells, push record `k`. With no
      reader installed the first row that has a cell throws, after being tagged and before its
      record is pushed. */
  function Tagging(body: seq<Row>, reader: Option<CellReader>, i: nat): (b: Built)
    requires i <= |body|
    decreases |body| - i
    ensures var f := Stop(body, reader, i);
      && (b.thrown.Some? <==> f < |body|)
      && (b.thrown.Some? ==> b.thrown == Some(ReaderUnset))
      && TaggedThrough(b.rows, body, i, f)
      && |b.records| == f - i
      && RecordsFrom(b.records, body, reader, i)
  {
    if i == |body| then Built([], [], None)
    else
      var row := body[i].(sortId := Some(i));
      if reader.None? && |row.cells| > 0 then Built([row] + body[i + 1..], [], Some(ReaderUnset))
      else
        var rest := Tagging(body, reader, i + 1);
        TaggingStep(body, reader, i, rest);
        Built([row] + rest.rows, [Record(i, RowValues(row.cells, reader))] + rest.records, rest.thrown)
  }

  /** A row that does not throw is tagged and its record pushed in front of what the loop does
      from the next row on. */
  lemma TaggingStep(body: seq<Row>, reader: Option<CellReader>, i: nat, rest: Built)
    requires i < |body| && !(reader.None? && |body[i].cells| > 0)
    requires var f := Stop(body, reader, i + 1);
      && (rest.thrown.Some? <==> f < |body|)
      && (rest.thrown.Some? ==> rest.thrown == Some(ReaderUnset))
      && TaggedThrough(rest.rows, body, i + 1, f)
      && |rest.records| == f - (i + 1)
      && RecordsFrom(rest.records, body, reader, i + 1)
    ensures var f := Stop(body, reader, i);
      var b := Built([body[i].(sortId := Some(i))] + rest.rows, [Record(i, RowValues(body[i].cells, reader))] + rest.records, rest.thrown);
      && (b.thrown.Some? <==> f < |body|)
      && (b.thrown.Some? ==> b.thrown == Some(ReaderUnset))
      && TaggedThrough(b.rows, body, i, f)
      && |b.records| == f - i
      && RecordsFrom(b.records, body, reader, i)
  {
    var f := Stop(body, reader, i);
    assert f == Stop(body, reader, i + 1);
    var rows := [body[i].(sortId := Some(i))] + rest.rows;
    var records := [Record(i, RowValues(body[i].cells, reader))] + rest.records;
    forall m | 0 < m < |rows| ensures rows[m] == rest.rows[m - 1] {
    }
    forall k | 0 < k < |records| ensures records[k] == rest.records[k - 1] {
    }
  }

  /** Row `k` tagged with its position `k`. */
  function TagAll(body: seq<Row>): (r: seq<Row>)
    ensures |r| == |body|
    ensures forall k :: 0 <= k < |body| ==> r[k] == body[k].(sortId := Some(k))
  {
    seq(|body|, k requires 0 <= k < |body| => body[k].(sortId := Some(k)))
  }

  /** Whether the build loop runs: no cached data yet, or a forced rebuild. */
  predicate Rebuilds(t: Table, forceReinit: bool) {
    t.status.data.None? || forceReinit
  }

  /** The build loop run from the first row, in closed form: without an exception every row is
      tagged and record `k` holds row `k`'s values; with one (no reader and some row has a cell)
      the rows up to the first row with a cell are tagged and only the records before it, without
      values, were pushed. */
  lemma TaggingFromStart(body: seq<Row>, reader: Option<CellReader>)
    ensures var b := Tagging(body, reader, 0);
      var f := FirstWithCells(body, 0);
      && (b.thrown.Some? <==> reader.None? && exists k :: 0 <= k < |body| && |body[k].cells| > 0)
      && (b.thrown.Some? ==>
            && b.thrown == Some(ReaderUnset)
            && TaggedThrough(b.rows, body, 0, f)
            && |b.records| == f
            && (forall k :: 0 <= k < f ==> b.records[k] == Record(k, [])))
      && (b.thrown.None? ==>
            && b.rows == TagAll(body)
            && |b.records| == |body|
            && RecordsFrom(b.records, body, reader, 0))
  {
    var b := Tagging(body, reader, 0);
    var f := Stop(body, reader, 0);
    if reader.None? && exists k :: 0 <= k < |body| && |body[k].cells| > 0 {
      var k :| 0 <= k < |body| && |body[k].cells| > 0;
      assert f < |body|;
    }
    if b.thrown.None? {
      assert b.rows == TagAll(body);
    }
  }

  /** The build branch of `initTableData`: tag the rows, push the records, and drop the first
      record when the first row is the header; an exception keeps what was pushed, unshifted. */
  function Rebuild(t: Table, reader: Option<CellReader>): (r: Outcome)
    ensures r.table.status.data.Some?
    ensures r.table.(body := t.body, status := r.table.status.(data := t.status.data)) == t
    ensures r.thrown.Some? <==> reader.None? && exists k :: 0 <= k < |t.body| && |t.body[k].cells| > 0
    ensures r.thrown.Some? ==>
      var f := FirstWithCells(t.body, 0);
      var data := r.table.status.data.value;
      && r.thrown == Some(ReaderUnset)
      && TaggedThrough(r.table.body, t.body, 0, f)
      && |data| == f
      && (forall k :: 0 <= k < f ==> data[k] == Record(k, []))
    ensures r.thrown.None? ==>
      var h := if t.status.excludeFirstRow && |t.body| > 0 then 1 else 0;
      && r.table.body == TagAll(t.body)
      && |r.table.status.data.value| == |t.body| - h
      && RecordsFrom(r.table.status.data.value, t.body, reader, h)
  {
    TaggingFromStart(t.body, reader);
    if Tagging(t.body, reader, 0).thrown.Some? then Interrupted(t, reader) else Completed(t, reader)
  }

  /** The build stopped by an unset reader: the rows tagged so far and the records pushed so far. */
  function Interrupted(t: Table, reader: Option<CellReader>): (r: Outcome)
    requires Tagging(t.body, reader, 0).thrown.Some?
    ensures r.table.status.data == Some(Tagging(t.body, reader, 0).records)
    ensures r.table.body == Tagging(t.body, reader, 0).rows
    ensures r.thrown == Some(ReaderUnset)
    ensures r.table.(body := t.body, status := r.table.status.(data := t.status.data)) == t
  {
    var b := Tagging(t.body, reader, 0);
    Outcome(t.(body := b.rows, status := t.status.(data := Some(b.records))), b.thrown)
  }

  /** The completed build: every row tagged, and the records without the header row's. */
  function Completed(t: Table, reader: Option<CellReader>): (r: Outcome)
    requires Tagging(t.body, reader, 0).thrown.None?
    ensures r.thrown.None? && r.table.status.data.Some?
    ensures r.table.(body := t.body, status := r.table.status.(data := t.status.data)) == t
    ensures var h := if t.status.excludeFirstRow && |t.body| > 0 then 1 else 0;
      && r.table.body == TagAll(t.body)
      && |r.table.status.data.value| == |t.body| - h
      && RecordsFrom(r.table.status.data.value, t.body, reader, h)
  {
    TaggingFromStart(t.body, reader);
    var b := Tagging(t.body, reader, 0);
    var h := if t.status.excludeFirstRow && |t.body| > 0 then 1 else 0;
    DropHeader(b.records, t.body, reader, h);
    Outcome(t.(body := b.rows, status := t.status.(data := Some(b.records[h..]))), None)
  }

  /** Dropping the first `h` records of a full build leaves record `k` holding row `k + h`. */
  lemma DropHeader(records: seq<Record>, body: seq<Row>, reader: Option<CellReader>, h: nat)
    requires |records| == |body| && h <= |body|
    requires RecordsFrom(records, body, reader, 0)
    ensures |records[h..]| == |body| - h
    ensures RecordsFrom(records[h..], body, reader, h)
  {
  }

  /** `initTableData(tbl, forceReinit)` (index.js:46-66). Existing data is reused unless a rebuild
      is forced. A build tags every body row with its position, caches records whose ids are the
      positions, in body order, and drops exactly the id-0 record when the first row is the header.
      Without a reader the first row with a cell throws, leaving the records pushed so far cached
      and not shifted. Only the body's tags and the cached data change. */
  function InitTableData(t: Table, reader: Option<CellReader>, forceReinit: bool): (r: Outcome)
    ensures !Rebuilds(t, forceReinit) ==> r == Outcome(t, None)
    ensures r.table.status.data.Some?
    ensures r.table.(body := t.body, status := r.table.status.(data := t.status.data)) == t
    ensures r.thrown.Some? <==>
      Rebuilds(t, forceReinit) && reader.None? && exists k :: 0 <= k < |t.body| && |t.body[k].cells| > 0
    ensures r.thrown.Some? ==>
      var f := FirstWithCells(t.body, 0);
      var data := r.table.status.data.value;
      && r.thrown == Some(ReaderUnset)
      && TaggedThrough(r.table.body, t.body, 0, f)
      && |data| == f
      && (forall k :: 0 <= k < f ==> data[k] == Record(k, []))
    ensures Rebuilds(t, forceReinit) && r.thrown.None? ==>
      var h := if t.status.excludeFirstRow && |t.body| > 0 then 1 else 0;
      && r.table.body == TagAll(t.body)
      && |r.table.status.data.value| == |t.body| - h
      && RecordsFrom(r.table.status.data.value, t.body, reader, h)
  {
    if !Rebuilds(t, forceReinit) then Outcome(t, None) else Rebuild(t, reader)
  }

  /** `setReadDataFunc(fn)` (index.js:137-140): the slot holds `fn` from now on, whatever it held
      before, so no later build throws, and every rebuilt record reads its cells through `fn`. */
  function SetReadDataFunc(cfg: Config, fn: CellReader): (r: Config)
    ensures forall t: Table, force: bool :: InitTableData(t, r.reader, force).thrown.None?
    ensures forall t: Table, force: bool :: Rebuilds(t, force) ==>
      var data := InitTableData(t, r.reader, force).table.status.data.value;
      forall k :: 0 <= k < |data| ==> data[k].cells == ReadCells(t.body[data[k].id].cells, fn)
  {
    Config(Some(fn))
  }
}

=== FILE: common.dfy ===
/** Small wrapper types shared by every module of the table-sort model. */
module Common {

  /** `undefined` versus a present value. */
  datatype Option<+T> = None | Some(value: T)

  /** The outcome of a step that can throw. */
  datatype Result<+T> = Success(value: T) | Failure(error: Error)

  /** The exceptions (and the one DOM misuse) the click handler and its helpers can run into. */
  datatype Error =
    | MarkerMissing     // the marked header cell holds no marker span: `[0].remove()` on undefined
    | ReaderUnset       // no cell reader was installed: `rd(...)` on undefined
    | HeaderRowMissing  // no body row is tagged 0: `header.after(...)` on undefined
    | RowMissing        // no body row carries a record's id: `after(undefined)` / `prepend(undefined)`
    | TagNameMissing    // a node without a tag name is inspected: `undefined.toUpperCase()`
}

=== FILE: compare.dfy ===
/** The comparator of the mousedown handler: absent values first handled apart, then the
    natural order of the values, negated under the descending direction (index.js:92-111). */
module Compare {
  import opened Common
  import opened Values
  import opened Tables

  /** The comparator over two cell values (index.js:94-107). */
  function CompareCells(a: Option<Value>, b: Option<Value>, srt: Direction): int {
    var ret :=
      if a.None? && b.None? then 0
      else if a.None? then 1
      else if b.None? then -1
      else if Less(b.value, a.value) then 1
      else if Less(a.value, b.value) then -1
      else 0;
    if srt == Descending then -ret else ret
  }

  /** Reference order for the ascending comparator: every present value comes before every
      absent one, and present values follow their natural order. */
  predicate AscendingBefore(a: Option<Value>, b: Option<Value>) {
    (a.Some? && b.None?) || (a.Some? && b.Some? && Less(a.value, b.value))
  }

  /** The comparator returns -1, 0 or 1; 0 exactly on equal values (both absent or equal); and
      -1 / 1 exactly as the reference order says, with the roles swapped when descending. */
  lemma CompareCellsMeaning(a: Option<Value>, b: Option<Value>, srt: Direction)
    ensures CompareCells(a, b, srt) in {-1, 0, 1}
    ensures CompareCells(a, b, srt) == 0 <==> a == b
    ensures srt != Descending ==>
      (CompareCells(a, b, srt) == -1 <==> AscendingBefore(a, b)) &&
      (CompareCells(a, b, srt) == 1 <==> AscendingBefore(b, a))
    ensures srt == Descending ==>
      (CompareCells(a, b, srt) == -1 <==> AscendingBefore(b, a)) &&
      (CompareCells(a, b, srt) == 1 <==> AscendingBefore(a, b))
  {
    if a.Some? && b.Some? {
      LessIsStrictTotalOrder(a.value, b.value, a.value);
    }
  }

  /** The comparator is antisymmetric in every direction: swapping the operands negates it. */
  lemma CompareCellsAntisymmetric(a: Option<Value>, b: Option<Value>, srt: Direction)
    ensures CompareCells(a, b, srt) == -CompareCells(b, a, srt)
  {
    if a.Some? && b.Some? {
      LessIsStrictTotalOrder(a.value, b.value, a.value);
    }
  }

  /** Absent values sort after present ones ascending and before them descending. */
  lemma AbsentPlacement(a: Value)
    ensures CompareCells(Some(a), None, Ascending) == -1
    ensures CompareCells(None, Some(a), Ascending) == 1
    ensures CompareCells(Some(a), None, Descending) == 1
    ensures CompareCells(None, Some(a), Descending) == -1
  {
  }

  /** The comparator actually handed to `data.sort`: the column comparator for a non-zero
      direction, `a.id - b.id` for direction 0 (index.js:92-111). */
  function Order(srt: Direction, col: nat, a: Record, b: Record): int {
    if srt == Unsorted then a.id - b.id
    else CompareCells(CellAt(a, col), CellAt(b, col), srt)
  }

  /** `a` may stay before `b`. */
  predicate Before(srt: Direction, col: nat, a: Record, b: Record) {
    Order(srt, col, a, b) <= 0
  }

  /** `a` and `b` tie. */
  predicate Tie(srt: Direction, col: nat, a: Record, b: Record) {
    Order(srt, col, a, b) == 0
  }

  /** `Before` is a total preorder whose ties are an equivalence; the sort's results rest on it. */
  lemma OrderIsTotalPreorder(srt: Direction, col: nat, a: Record, b: Record, c: Record)
    ensures Before(srt, col, a, b) || Before(srt, col, b, a)
    ensures !Before(srt, col, a, b) ==> Order(srt, col, b, a) < 0
    ensures Before(srt, col, a, b) && Before(srt, col, b, c) ==> Before(srt, col, a, c)
    ensures Tie(srt, col, a, b) ==> Tie(srt, col, b, a)
    ensures Tie(srt, col, a, b) && Tie(srt, col, b, c) ==> Tie(srt, col, a, c)
  {
    if srt != Unsorted {
      var x, y, z := CellAt(a, col), CellAt(b, col), CellAt(c, col);
      CompareCellsMeaning(x, y, srt);
      CompareCellsMeaning(y, z, srt);
      CompareCellsMeaning(x, z, srt);
      CompareCellsAntisymmetric(x, y, srt);
      if x.Some? && y.Some? && z.Some? {
        LessIsStrictTotalOrder(x.value, y.value, z.value);
        LessIsStrictTotalOrder(z.value, y.value, x.value);
      }
    }
  }

  /** Under direction 0 the comparator orders records by id and nothing else. */
  lemma UnsortedOrdersById(col: nat, a: Record, b: Record)
    ensures Before(Unsorted, col, a, b) <==> a.id <= b.id
    ensures Tie(Unsorted, col, a, b) <==> a.id == b.id
  {
  }
}

=== FILE: engine.dfy ===
/** The mousedown handler bound to each header cell (index.js:77-133): marker update, lazy data
    build, sort of the cached data, and reordering of the body rows. */
module Engine {
  import opened Common
  import opened Tables
  import opened Marker
  import opened Sort
  import opened Build
  import opened Reordering

  /** One press on header column `col` of table `t`, with the reader slot `cfg`. An exception
      ends the handler and keeps whatever was changed before it. */
  function Click(t: Table, cfg: Config, col: nat): Outcome {
    match UpdateMarkers(t, col)
    case Failure(err) => Outcome(t, Some(err))
    case Success(marked) =>
      var built := InitTableData(marked, cfg.reader, false);
      if built.thrown.Some? then built
      else SortAndPlace(built.table, col)
  }

  /** Lines 91-130 once the data is cached: sort it in place with the comparator of the current
      direction, then move the body rows into its order. */
  function SortAndPlace(t: Table, col: nat): Outcome
    requires t.status.data.Some?
  {
    var sorted := SortRecords(t.status.data.value, t.status.srt, col);
    var placed := Reconcile(t.body, sorted, t.status.excludeFirstRow);
    Outcome(t.(status := t.status.(data := Some(sorted)), body := placed.rows), placed.thrown)
  }

  /** The cached data, when there is any, agrees with the body rows. */
  ghost predicate TableSynced(t: Table) {
    t.status.data.Some? ==> Synced(t.body, t.status.data.value, t.status.excludeFirstRow)
  }

  /** What a build without exception leaves: the tagged body, and record ids counting up from
      the first data row. */
  lemma BuildShape(t: Table, reader: Option<CellReader>) returns (h: nat)
    requires t.status.data.None?
    requires InitTableData(t, reader, false).thrown.None?
    ensures var b := InitTableData(t, reader, false).table;
      && b.body == TagAll(t.body)
      && b.status.excludeFirstRow == t.status.excludeFirstRow
      && h == HeaderCount(b.body, b.status.excludeFirstRow)
      && |b.status.data.value| + h == |b.body|
      && forall k :: 0 <= k < |b.status.data.value| ==> b.status.data.value[k].id == k + h
  {
    h := if t.status.excludeFirstRow && |t.body| > 0 then 1 else 0;
  }

  /** Freshly built data agrees with the freshly tagged body, and its ids increase. */
  lemma BuildSyncs(t: Table, reader: Option<CellReader>)
    requires t.status.data.None?
    requires InitTableData(t, reader, false).thrown.None?
    ensures TableSynced(InitTableData(t, reader, false).table)
    ensures IncreasingIds(InitTableData(t, reader, false).table.status.data.value)
    ensures var b := InitTableData(t, reader, false).table;
      Tags(b.body) == Want(b.body, b.status.data.value, b.status.excludeFirstRow)
  {
    var h := BuildShape(t, reader);
    var b := InitTableData(t, reader, false).table;
    WantCountsUp(b.body, b.status.data.value, b.status.excludeFirstRow, h);
  }

  /** When the record ids count up from the header count, the wanted tags are the positions. */
  lemma WantCountsUp(body: seq<Row>, data: seq<Record>, exclude: bool, h: nat)
    requires h == HeaderCount(body, exclude)
    requires |data| + h == |body|
    requires forall k :: 0 <= k < |data| ==> data[k].id == k + h
    requires forall k :: 0 <= k < |body| ==> body[k].sortId == Some(k)
    ensures Synced(body, data, exclude)
    ensures Tags(body) == Want(body, data, exclude)
    ensures IncreasingIds(data)
  {
    var want := Want(body, data, exclude);
    forall k | 0 <= k < |want| ensures want[k] == Some(k) {
      if k >= h {
        assert want[k] == RecordTags(data)[k - h];
      }
    }
    assert Tags(body) == want;
    UniqueIsDistinct(want);
  }

  /** Sorting the cached data and reordering the rows: the data becomes a stable sorted
      permutation of itself, and the rows, the same rows as before, follow it. */
  lemma SortAndPlaceOrders(t: Table, col: nat)
    requires t.status.data.Some? && TableSynced(t)
    ensures var o := SortAndPlace(t, col);
      var d := o.table.status.data.value;
      && o.thrown.None?
      && TableSynced(o.table)
      && o.table.status == t.status.(data := Some(d))
      && o.table.(body := t.body, status := t.status) == t
      && multiset(d) == multiset(t.status.data.value)
      && Sorted(d, t.status.srt, col)
      && (forall z :: Ties(d, z, t.status.srt, col) == Ties(t.status.data.value, z, t.status.srt, col))
      && multiset(o.table.body) == multiset(t.body)
      && Tags(o.table.body) == Want(o.table.body, d, t.status.excludeFirstRow)
  {
    var data := t.status.data.value;
    var srt := t.status.srt;
    var exclude := t.status.excludeFirstRow;
    var sorted := SortRecords(data, srt, col);
    forall z ensures Ties(sorted, z, srt, col) == Ties(data, z, srt, col) {
      SortIsStable(data, z, srt, col);
    }
    RecordTagsPermute(data, sorted);
    PermutedDataStaysSynced(t.body, data, sorted, exclude);
    ReconcileOrders(t.body, sorted, exclude);
    var rows := Reconcile(t.body, sorted, exclude).rows;
    assert |rows| == |t.body| by {
      assert |multiset(rows)| == |multiset(t.body)|;
    }
    assert Want(rows, sorted, exclude) == Want(t.body, sorted, exclude);
    if HeaderCount(rows, exclude) == 1 {
      assert rows[0].sortId == Tags(rows)[0];
    }
    assert Synced(rows, sorted, exclude);
  }

  /** A press on a table whose markers agree and whose data (if cached) agrees with its body, and
      that has a reader or cached data, never throws. Afterwards the status is the pressed one,
      the markers and data still agree, the data is a permutation of the data before the sort
      (the cached data, or the freshly built one), ordered by the comparator, with ties in their
      previous order, and the body holds the same rows in the order header row, then data. */
  lemma ClickSortsAndReorders(t: Table, cfg: Config, col: nat)
    requires MarkersAgree(t) && TableSynced(t)
    requires t.status.data.Some? || cfg.reader.Some?
    ensures var o := Click(t, cfg, col);
      var pre := InitTableData(t, cfg.reader, false).table;
      var d := o.table.status.data.value;
      && o.thrown.None?
      && MarkersAgree(o.table) && TableSynced(o.table)
      && o.table.status == Press(t.status, col).(data := Some(d))
      && multiset(d) == multiset(pre.status.data.value)
      && Sorted(d, o.table.status.srt, col)
      && (forall z :: Ties(d, z, o.table.status.srt, col) == Ties(pre.status.data.value, z, o.table.status.srt, col))
      && multiset(o.table.body) == multiset(pre.body)
      && Tags(o.table.body) == Want(o.table.body, d, o.table.status.excludeFirstRow)
      && o.table.(body := t.body, markers := t.markers, status := t.status) == t
  {
    var marked := UpdateMarkers(t, col).value;
    var built := InitTableData(marked, cfg.reader, false);
    assert built.table.body == InitTableData(t, cfg.reader, false).table.body;
    assert built.table.status.data == InitTableData(t, cfg.reader, false).table.status.data;
    if t.status.data.None? {
      BuildSyncs(marked, cfg.reader);
    }
    SortAndPlaceOrders(built.table, col);
  }

  /** Taking one record out takes its id out of the ids. */
  lemma RemoveRecordTag(b: seq<Record>, j: nat)
    requires j < |b|
    ensures multiset(RecordTags(b)) == multiset(RecordTags(RemoveAt(b, j))) + multiset{Some(b[j].id)}
  {
    var t := RecordTags(b);
    assert t == t[..j] + [Some(b[j].id)] + t[j + 1..];
    assert RecordTags(RemoveAt(b, j)) == t[..j] + t[j + 1..];
  }

  /** Permuting the records permutes their ids. */
  lemma {:induction false} RecordTagsPermute(a: seq<Record>, b: seq<Record>)
    requires multiset(a) == multiset(b)
    ensures multiset(RecordTags(a)) == multiset(RecordTags(b))
    decreases |a|
  {
    if |a| > 0 {
      var x := a[0];
      assert x in multiset(b);
      var j :| 0 <= j < |b| && b[j] == x;
      assert a[1..] == RemoveAt(a, 0);
      RecordTagsPermute(RemoveAt(a, 0), RemoveAt(b, j));
      RemoveRecordTag(a, 0);
      RemoveRecordTag(b, j);
    }
  }

  /** Replacing the data by a permutation of it keeps it in agreement with the body. */
  lemma PermutedDataStaysSynced(body: seq<Row>, data: seq<Record>, sorted: seq<Record>, exclude: bool)
    requires Synced(body, data, exclude)
    requires multiset(RecordTags(sorted)) == multiset(RecordTags(data))
    ensures Synced(body, sorted, exclude)
  {
    var w := Want(body, data, exclude);
    var w' := Want(body, sorted, exclude);
    assert multiset(w') == multiset(w);
    UniqueIsDistinct(w);
    DistinctPermutation(w, w');
    UniqueIsDistinct(w');
  }

  /** Two permutations of each other with the same tags, all different, are the same rows. */
  lemma SameTagsSameRows(a: seq<Row>, b: seq<Row>)
    requires multiset(a) == multiset(b)
    requires Tags(a) == Tags(b) && Distinct(Tags(a))
    ensures a == b
  {
    forall i | 0 <= i < |a| ensures a[i] == b[i] {
      assert a[i] in multiset(b);
      var j :| 0 <= j < |b| && b[j] == a[i];
      assert Tags(a)[j] == Tags(a)[i];
    }
  }

  /** What one press keeps, in short: no exception, agreeing markers and data, the pressed
      direction and marked cell, and the same records and rows up to order. */
  lemma ClickKeeps(t: Table, cfg: Config, col: nat, data: seq<Record>, rows: seq<Row>)
    requires MarkersAgree(t) && TableSynced(t)
    requires t.status.data.Some? || cfg.reader.Some?
    requires multiset(InitTableData(t, cfg.reader, false).table.status.data.value) == multiset(data)
    requires multiset(InitTableData(t, cfg.reader, false).table.body) == multiset(rows)
    ensures var o := Click(t, cfg, col);
      && o.thrown.None?
      && MarkersAgree(o.table) && TableSynced(o.table)
      && o.table.status.data.Some?
      && o.table.status.srt == Press(t.status, col).srt
      && o.table.status.el == Press(t.status, col).el
      && o.table.status.excludeFirstRow == t.status.excludeFirstRow
      && multiset(o.table.status.data.value) == multiset(data)
      && multiset(o.table.body) == multiset(rows)
  {
    ClickSortsAndReorders(t, cfg, col);
  }

  /** A press that ends in direction 0 puts back the data as built and the rows as tagged. */
  lemma UnsortedClickRestores(t: Table, cfg: Config, col: nat, built: seq<Record>, base: seq<Row>)
    requires MarkersAgree(t) && TableSynced(t) && t.status.data.Some?
    requires Press(t.status, col).srt == Unsorted
    requires IncreasingIds(built) && multiset(t.status.data.value) == multiset(built)
    requires Tags(base) == Want(base, built, t.status.excludeFirstRow) && Distinct(Tags(base))
    requires multiset(t.body) == multiset(base)
    ensures Click(t, cfg, col).table.status.data == Some(built)
    ensures Click(t, cfg, col).table.body == base
  {
    var o := Click(t, cfg, col);
    ClickSortsAndReorders(t, cfg, col);
    var d := o.table.status.data.value;
    IdOrderIsUnique(built, d, col);
    assert |o.table.body| == |base| by {
      assert |multiset(o.table.body)| == |multiset(base)|;
    }
    assert Want(o.table.body, built, t.status.excludeFirstRow) == Want(base, built, t.status.excludeFirstRow);
    SameTagsSameRows(o.table.body, base);
  }

  /** With cached data and no forced rebuild the build step hands the table back untouched. */
  lemma CachedBuildIsIdentity(t: Table, reader: Option<CellReader>)
    requires t.status.data.Some?
    ensures InitTableData(t, reader, false) == Outcome(t, None)
  {
  }

  /** The tagged body's tags are its positions, so all different. */
  lemma TagAllDistinct(body: seq<Row>)
    ensures Distinct(Tags(TagAll(body)))
  {
  }

  /** The first two presses on a header cell that does not carry the marker, on a table whose
      data is not built yet and that has a reader: neither throws, the direction ends at 2 on
      that cell, and the data and rows are those of the first build up to order. */
  lemma TwoClicksDescend(t: Table, cfg: Config, col: nat)
    requires MarkersAgree(t) && t.status.data.None? && cfg.reader.Some?
    requires t.status.el != Some(col)
    ensures var b := InitTableData(t, cfg.reader, false).table;
      var o1 := Click(t, cfg, col);
      var o2 := Click(o1.table, cfg, col);
      && o1.thrown.None? && o2.thrown.None?
      && MarkersAgree(o2.table) && TableSynced(o2.table) && o2.table.status.data.Some?
      && o2.table.status.srt == Descending && o2.table.status.el == Some(col)
      && o2.table.status.excludeFirstRow == t.status.excludeFirstRow
      && multiset(o2.table.status.data.value) == multiset(b.status.data.value)
      && multiset(o2.table.body) == multiset(b.body)
  {
    var b := InitTableData(t, cfg.reader, false).table;
    var o1 := Click(t, cfg, col);
    ClickKeeps(t, cfg, col, b.status.data.value, b.body);
    CachedBuildIsIdentity(o1.table, cfg.reader);
    ClickKeeps(o1.table, cfg, col, b.status.data.value, b.body);
  }

  /** Three presses on a header cell that does not carry the marker, on a table whose data is not
      built yet and that has a reader: none throws, and afterwards the direction is 0, no cell is
      marked, the cached data is the data as first built and every row is back at the position it
      had before the first press (now tagged with it). */
  lemma ThreeClicksRestoreOrder(t: Table, cfg: Config, col: nat)
    requires MarkersAgree(t) && t.status.data.None? && cfg.reader.Some?
    requires t.status.el != Some(col)
    ensures var o1 := Click(t, cfg, col);
      var o2 := Click(o1.table, cfg, col);
      var o3 := Click(o2.table, cfg, col);
      && o1.thrown.None? && o2.thrown.None? && o3.thrown.None?
      && o3.table.status.srt == Unsorted && o3.table.status.el.None? && o3.table.markers == multiset{}
      && o3.table.status.data == InitTableData(t, cfg.reader, false).table.status.data
      && o3.table.body == TagAll(t.body)
  {
    var b := InitTableData(t, cfg.reader, false).table;
    var built := b.status.data.value;
    BuildSyncs(t, cfg.reader);
    var _ := BuildShape(t, cfg.reader);
    TagAllDistinct(t.body);
    TwoClicksDescend(t, cfg, col);
    var o2 := Click(Click(t, cfg, col).table, cfg, col);
    CachedBuildIsIdentity(o2.table, cfg.reader);
    ClickKeeps(o2.table, cfg, col, built, b.body);
    UnsortedClickRestores(o2.table, cfg, col, built, b.body);
  }

  /** Cached data is never rebuilt by a press (the handler never forces a rebuild): whatever
      happens, the data afterwards is a permutation of the data before. */
  lemma CachedDataIsNeverRebuilt(t: Table, cfg: Config, col: nat)
    requires t.status.data.Some?
    ensures Click(t, cfg, col).table.status.data.Some?
    ensures multiset(Click(t, cfg, col).table.status.data.value) == multiset(t.status.data.value)
  {
  }

  /** Without a reader (`setReadDataFunc` never called), the first press on a table with a body
      cell throws at the reader call, after the direction and the marker are updated; the data
      cached by then holds only the records of the rows before the first row with a cell, none of
      them with a value, and is never rebuilt afterwards. */
  lemma ReaderUnsetThrows(t: Table, col: nat)
    requires MarkersAgree(t) && t.status.data.None?
    requires exists k :: 0 <= k < |t.body| && |t.body[k].cells| > 0
    ensures var o := Click(t, Config(None), col);
      && o.thrown == Some(ReaderUnset)
      && MarkersAgree(o.table)
      && o.table.status == Press(t.status, col).(data := o.table.status.data)
      && o.table.status.data.Some?
      && |o.table.status.data.value| == FirstWithCells(t.body, 0) < |t.body|
      && forall k :: 0 <= k < |o.table.status.data.value| ==> o.table.status.data.value[k].cells == []
  {
  }
}

=== FILE: marker.dfy ===
/** The direction/marker state machine run at the start of every header click (index.js:81-86). */
module Marker {
  import opened Common
  import opened Tables

  /** `!srt ? 1 : srt === 1 ? 2 : 0`: one step of the cycle 0 -> 1 -> 2 -> 0. */
  function Advance(d: Direction): (r: Direction)
    ensures r != d
    ensures d == Unsorted ==> r == Ascending
  {
    match d
    case Unsorted => Ascending
    case Ascending => Descending
    case Descending => Unsorted
  }

  /** Three steps of the cycle return to the start. */
  lemma AdvanceHasPeriodThree(d: Direction)
    ensures Advance(Advance(Advance(d))) == d
    ensures Advance(d) != d && Advance(Advance(d)) != d
  {
  }

  /** The status after a click on header column `col` (index.js:83-85): a click on another cell
      than the marked one restarts the cycle, so it always gives ascending; a click on the marked
      cell advances the cycle. The clicked cell becomes the marked one exactly when the new
      direction is not 0. No other status field changes. */
  function Press(s: Status, col: nat): (r: Status)
    ensures s.el != Some(col) ==> r.srt == Ascending
    ensures s.el == Some(col) && s.srt == Unsorted ==> r.srt == Ascending
    ensures s.el == Some(col) && s.srt == Ascending ==> r.srt == Descending
    ensures s.el == Some(col) && s.srt == Descending ==> r.srt == Unsorted
    ensures r.srt != Unsorted ==> r.el == Some(col)
    ensures r.srt == Unsorted ==> r.el == None
    ensures r.(srt := s.srt, el := s.el) == s
  {
    var srt := if s.el != Some(col) then Unsorted else s.srt;
    var next := Advance(srt);
    s.(srt := next, el := if next != Unsorted then Some(col) else None)
  }

  /** Three clicks on one header cell: if it carried the marker, the status comes back unchanged;
      otherwise the table ends in direction 0 with no marked cell. */
  lemma ThreePresses(s: Status, col: nat)
    requires s.el.Some? ==> s.srt != Unsorted
    ensures Press(Press(Press(s, col), col), col)
         == if s.el == Some(col) then s else s.(srt := Unsorted, el := None)
  {
  }

  /** The marker spans agree with the status: a marked cell exactly when the direction is not 0,
      and exactly one marker span, on that cell. */
  ghost predicate MarkersAgree(t: Table) {
    && (t.status.el.Some? <==> t.status.srt != Unsorted)
    && t.markers == (if t.status.el.Some? then multiset{t.status.el.value} else multiset{})
  }

  /** Lines 81-86: remove one marker span from the marked cell (which throws when it has none),
      update the status, and append a marker span to the clicked cell when the new direction is
      not 0. From agreeing markers the update never throws, keeps them agreeing, and leaves at
      most one marker, on the clicked cell. */
  function UpdateMarkers(t: Table, col: nat): (r: Result<Table>)
    ensures r.Failure? <==> t.status.el.Some? && t.status.el.value !in t.markers
    ensures r.Success? ==> r.value.status == Press(t.status, col)
    ensures r.Success? ==> r.value.(markers := t.markers, status := t.status) == t
    ensures MarkersAgree(t) ==> r.Success? && MarkersAgree(r.value)
    ensures MarkersAgree(t) ==> |r.value.markers| <= 1
    ensures MarkersAgree(t) && r.value.status.srt != Unsorted ==> r.value.markers == multiset{col}
  {
    if t.status.el.Some? && t.status.el.value !in t.markers then Failure(MarkerMissing)
    else
      var removed := if t.status.el.Some? then t.markers - multiset{t.status.el.value} else t.markers;
      var s := Press(t.status, col);
      var added := if s.srt != Unsorted then removed + multiset{col} else removed;
      Success(t.(status := s, markers := added))
  }
}

=== FILE: parent.dfy ===
/** `findParentTag` (index.js:19-23): the walk up the parent chain from a header cell to its
    enclosing element of a given tag. */
module Parent {
  import opened Common

  /** A DOM node on the parent chain. Elements have a tag name; the document node (the root of
      every attached element's chain) and text nodes have none. */
  datatype Node = Node(tagName: Option<string>)

  /** `toUpperCase` on one character, for the ASCII letters tag names are made of. */
  function UpperChar(c: char): (u: char)
    ensures 'a' <= c <= 'z' ==> 'A' <= u <= 'Z' && u as int == c as int - 32
    ensures !('a' <= c <= 'z') ==> u == c
  {
    if 'a' <= c <= 'z' then (c as int - 32) as char else c
  }

  /** `toUpperCase` on a string, character by character. */
  function Upper(s: string): (r: string)
    ensures |r| == |s|
    ensures forall k :: 0 <= k < |s| ==> r[k] == UpperChar(s[k])
  {
    seq(|s|, k requires 0 <= k < |s| => UpperChar(s[k]))
  }

  /** Upper-casing twice is upper-casing once: an upper-cased tag name compares like itself. */
  lemma UpperIsIdempotent(s: string)
    ensures Upper(Upper(s)) == Upper(s)
    ensures forall k :: 0 <= k < |s| ==> !('a' <= Upper(s)[k] <= 'z')
  {
  }

  /** Node `n` is an element whose upper-cased tag name is `want`. */
  predicate Matches(n: Node, want: string) {
    n.tagName.Some? && Upper(n.tagName.value) == want
  }

  /** The walk passes the nodes `lo .. hi-1`: each has a tag name and none matches. */
  ghost predicate Passes(chain: seq<Node>, want: string, lo: nat, hi: nat)
    requires lo <= hi <= |chain|
  {
    forall j :: lo <= j < hi ==> chain[j].tagName.Some? && !Matches(chain[j], want)
  }

  /** Reference definition of where the walk from position `i` ends: the first node from `i` on
      that has no tag name or matches, or `|chain|` when there is none. */
  function FirstStop(chain: seq<Node>, want: string, i: nat): (f: nat)
    requires i <= |chain|
    ensures i <= f <= |chain|
    ensures Passes(chain, want, i, f)
    ensures f < |chain| ==> chain[f].tagName.None? || Matches(chain[f], want)
    decreases |chain| - i
  {
    if i == |chain| || chain[i].tagName.None? || Matches(chain[i], want) then i
    else FirstStop(chain, want, i + 1)
  }

  /** The loop at line 21 from position `i` on, and the test at line 22. The loop stops at the
      root (no `parentNode`) or at a matching element; reading the tag name of a node without one
      throws, in the loop test or in the final test. The walk ends where the reference says. */
  function Climb(chain: seq<Node>, want: string, i: nat): (r: Result<Option<nat>>)
    requires i < |chain|
    ensures var f := FirstStop(chain, want, i);
      r == if f == |chain| then Success(None)
           else if chain[f].tagName.None? then Failure(TagNameMissing)
           else Success(Some(f))
    decreases |chain| - i
  {
    var n := chain[i];
    if i + 1 < |chain| && (n.tagName.None? || Upper(n.tagName.value) != want) then
      if n.tagName.None? then Failure(TagNameMissing)
      else Climb(chain, want, i + 1)
    else if n.tagName.None? then Failure(TagNameMissing)
    else if Upper(n.tagName.value) == want then Success(Some(i))
    else Success(None)
  }

  /** The stopping point is the only position that all earlier nodes pass and that stops the walk. */
  lemma FirstStopIsFirst(chain: seq<Node>, want: string, k: nat)
    requires k < |chain| && Passes(chain, want, 0, k)
    requires chain[k].tagName.None? || Matches(chain[k], want)
    ensures FirstStop(chain, want, 0) == k
  {
  }

  /** Lines 19-23 on the chain `el, el.parentNode, ...` (the node itself first, the root last). */
  function FindParentTag(chain: seq<Node>, tagName: string): (r: Result<Option<nat>>)
    requires |chain| > 0
  {
    Climb(chain, Upper(tagName), 0)
  }

  /** The answer is the first element on the chain whose tag equals `tagName` ignoring case,
      `None` when every node is an element and none matches, and an exception when a node without
      a tag name is reached first. On an attached element the chain ends at the document node, so
      a search without a match throws rather than answering `undefined`. */
  lemma FindParentTagMeaning(chain: seq<Node>, tagName: string, k: nat)
    requires k < |chain|
    ensures var r := FindParentTag(chain, tagName);
      var want := Upper(tagName);
      && (r == Success(Some(k)) <==> Passes(chain, want, 0, k) && Matches(chain[k], want))
      && (r == Success(None) <==> Passes(chain, want, 0, |chain|))
      && (r == Failure(TagNameMissing) <==> exists j :: 0 <= j < |chain| && Passes(chain, want, 0, j) && chain[j].tagName.None?)
      && (r.Failure? ==> r.error == TagNameMissing)
  {
    var want := Upper(tagName);
    if Passes(chain, want, 0, k) && Matches(chain[k], want) {
      FirstStopIsFirst(chain, want, k);
    }
    if exists j :: 0 <= j < |chain| && Passes(chain, want, 0, j) && chain[j].tagName.None? {
      var j :| 0 <= j < |chain| && Passes(chain, want, 0, j) && chain[j].tagName.None?;
      FirstStopIsFirst(chain, want, j);
    }
  }

  /** The search ignores case: asking for `tagName` or for its upper-cased form is the same. */
  lemma FindParentTagIgnoresCase(chain: seq<Node>, tagName: string)
    requires |chain| > 0
    ensures FindParentTag(chain, Upper(tagName)) == FindParentTag(chain, tagName)
  {
    UpperIsIdempotent(tagName);
  }
}

=== FILE: registry.dfy ===
/** `initAll` (index.js:26-44): the one-time set-up of every table carrying the `table-sort`
    attribute. The query `$('[table-sort]')` is given as the sequence of matched tables. */
module Registry {
  import opened Common
  import opened Tables

  /** One handler for each of the columns `0 .. n-1`: the loop at lines 37-39 calls `init` on
      every cell of the header row with its index. */
  function Columns(n: nat): (m: multiset<nat>)
    ensures forall j: nat :: m[j] == (if j < n then 1 else 0)
    ensures |m| == n
  {
    if n == 0 then multiset{} else Columns(n - 1) + multiset{n - 1}
  }

  /** The header row whose cells get a handler: the first `thead tr`, else the first `tr` of
      the table; `None` when the table has no row at all. */
  function HeaderCells(t: Table): (n: Option<nat>)
    ensures t.theadRow.Some? ==> n == t.theadRow
    ensures t.theadRow.None? ==> n == t.firstRow
  {
    if t.theadRow.Some? then t.theadRow else t.firstRow
  }

  /** Lines 29-41 for one table. An initialized table is left alone. Otherwise the first row is
      flagged as a header row when there is no `thead tr` (the flag is only ever set, never
      cleared), every cell of the header row gets one more handler, and the table is marked
      initialized. Nothing else changes. */
  function InitTable(t: Table): (r: Table)
    ensures r.status.initialized
    ensures t.status.initialized ==> r == t
    ensures !t.status.initialized ==>
      && r.status.excludeFirstRow == (t.status.excludeFirstRow || t.theadRow.None?)
      && (forall j: nat :: r.handlers[j] == t.handlers[j] + if HeaderCells(t).Some? && j < HeaderCells(t).value then 1 else 0)
    ensures r.(handlers := t.handlers, status := t.status) == t
    ensures r.status.(initialized := t.status.initialized, excludeFirstRow := t.status.excludeFirstRow) == t.status
  {
    if t.status.initialized then t
    else
      var exclude := if t.theadRow.None? then true else t.status.excludeFirstRow;
      var bound := match HeaderCells(t) case Some(n) => t.handlers + Columns(n) case None => t.handlers;
      t.(handlers := bound, status := t.status.(excludeFirstRow := exclude, initialized := true))
  }

  /** Lines 26-44: every matched table goes through `InitTable`, in order. */
  function InitAll(tables: seq<Table>): (r: seq<Table>)
    ensures |r| == |tables|
    ensures forall i :: 0 <= i < |r| ==> r[i].status.initialized
    ensures forall i :: 0 <= i < |r| && tables[i].status.initialized ==> r[i] == tables[i]
    ensures forall i :: 0 <= i < |r| ==> r[i].body == tables[i].body && r[i].markers == tables[i].markers
    ensures forall i :: 0 <= i < |r| && !tables[i].status.initialized ==>
      && r[i].status.excludeFirstRow == (tables[i].status.excludeFirstRow || tables[i].theadRow.None?)
      && (forall j: nat :: r[i].handlers[j] == tables[i].handlers[j] + if HeaderCells(tables[i]).Some? && j < HeaderCells(tables[i]).value then 1 else 0)
    ensures forall i :: 0 <= i < |r| ==>
      r[i].(handlers := tables[i].handlers, status := r[i].status.(initialized := tables[i].status.initialized, excludeFirstRow := tables[i].status.excludeFirstRow)) == tables[i]
  {
    seq(|tables|, i requires 0 <= i < |tables| => InitTable(tables[i]))
  }

  /** Running `initAll` again (after new tables were created, say) binds nothing twice: on the
      tables it already saw it changes nothing. */
  lemma InitAllIsIdempotent(tables: seq<Table>)
    ensures InitAll(InitAll(tables)) == InitAll(tables)
  {
  }

  /** On a table seen for the first time (no status object yet), the first row is flagged as a
      header row exactly when there is no `thead tr`, and each column of the header row ends up
      with exactly one handler, the others with none. */
  lemma FreshTableBindsEachColumnOnce(t: Table)
    requires t.status == Fresh() && t.handlers == multiset{}
    ensures InitTable(t).status.excludeFirstRow <==> t.theadRow.None?
    ensures forall j: nat :: InitTable(t).handlers[j] == if HeaderCells(t).Some? && j < HeaderCells(t).value then 1 else 0
    ensures InitTable(t).status == Fresh().(initialized := true, excludeFirstRow := t.theadRow.None?)
  {
  }

  /** However often `initAll` runs, a fresh table's columns are bound at most once each. */
  lemma {:induction false} RepeatedInitAllBindsOnce(tables: seq<Table>, n: nat)
    requires forall i :: 0 <= i < |tables| ==> tables[i].status == Fresh() && tables[i].handlers == multiset{}
    ensures forall i, j: nat :: 0 <= i < |tables| ==> Repeat(tables, n)[i].handlers[j] <= 1
    decreases n
  {
    if n > 1 {
      RepeatedInitAllBindsOnce(tables, n - 1);
      InitAllIsIdempotent(Repeat(tables, n - 2));
    } else if n == 1 {
      forall i | 0 <= i < |tables| ensures forall j: nat :: Repeat(tables, n)[i].handlers[j] <= 1 {
        FreshTableBindsEachColumnOnce(tables[i]);
      }
    }
  }

  /** `initAll` run `n` times. */
  function Repeat(tables: seq<Table>, n: nat): (r: seq<Table>)
    ensures |r| == |tables|
  {
    if n == 0 then tables else InitAll(Repeat(tables, n - 1))
  }
}

=== FILE: reordering.dfy ===
/** The reconciliation loop of the mousedown handler (index.js:113-130): the body rows are moved,
    one `after`/`prepend` at a time, into the order of the sorted data. Rows are never created or
    copied; each move takes a row out of the list and inserts it at a new position. */
module Reordering {
  import opened Common
  import opened Tables

  /** `s` without its element at `k`. */
  function RemoveAt<T>(s: seq<T>, k: nat): (r: seq<T>)
    requires k < |s|
    ensures |r| == |s| - 1
    ensures multiset(r) == multiset(s) - multiset{s[k]}
    ensures forall j :: 0 <= j < k ==> r[j] == s[j]
    ensures forall j :: k <= j < |r| ==> r[j] == s[j + 1]
  {
    assert s == s[..k] + [s[k]] + s[k + 1..];
    s[..k] + s[k + 1..]
  }

  /** `s` with `x` inserted so that it ends up at position `k`. */
  function InsertAt<T>(s: seq<T>, k: nat, x: T): (r: seq<T>)
    requires k <= |s|
    ensures |r| == |s| + 1
    ensures multiset(r) == multiset(s) + multiset{x}
    ensures r[k] == x
    ensures forall j :: 0 <= j < k ==> r[j] == s[j]
    ensures forall j :: k < j < |r| ==> r[j] == s[j - 1]
  {
    assert s == s[..k] + s[k..];
    s[..k] + [x] + s[k..]
  }

  /** `anchor.after(el)` for the anchor at `a` and the element at `e`: the element is taken out
      and inserted right behind the anchor (`AfterMoves`). An element placed after itself stays
      put. */
  function After<T>(s: seq<T>, a: nat, e: nat): seq<T>
    requires a < |s| && e < |s|
  {
    if a == e then s
    else if a < e then MoveBack(s, a + 1, e)
    else MoveForward(s, e, a)
  }

  /** The element at `e` taken out and inserted at the earlier position `k`. */
  function MoveBack<T>(s: seq<T>, k: nat, e: nat): seq<T>
    requires k <= e < |s|
  {
    InsertAt(RemoveAt(s, e), k, s[e])
  }

  /** The element at `e` taken out and inserted so that it ends up at the later position `k`. */
  function MoveForward<T>(s: seq<T>, e: nat, k: nat): seq<T>
    requires e < k < |s|
  {
    InsertAt(RemoveAt(s, e), k, s[e])
  }

  /** `tbody.prepend(el)` for the element at `e`: it is taken out and inserted at the front. */
  function Prepend<T>(s: seq<T>, e: nat): seq<T>
    requires e < |s|
  {
    MoveBack(s, 0, e)
  }

  /** Taking an element out and inserting it elsewhere keeps the same elements. */
  lemma MoveKeepsRows<T>(s: seq<T>, e: nat, k: nat)
    requires e < |s| && k < |s|
    ensures multiset(InsertAt(RemoveAt(s, e), k, s[e])) == multiset(s)
  {
    assert s[e] in multiset(s);
  }

  /** Moving an element back lands it at `k`, shifts the elements from `k` up to its old place
      one step back, and leaves the rest alone. */
  lemma MoveBackMoves<T>(s: seq<T>, k: nat, e: nat)
    requires k <= e < |s|
    ensures var r := MoveBack(s, k, e);
      && |r| == |s|
      && multiset(r) == multiset(s)
      && r[k] == s[e]
      && (forall j :: 0 <= j < k ==> r[j] == s[j])
      && (forall j :: k < j <= e ==> r[j] == s[j - 1])
      && (forall j :: e < j < |s| ==> r[j] == s[j])
  {
    MoveKeepsRows(s, e, k);
  }

  /** Moving an element forward lands it at `k`, shifts the elements behind its old place up to
      `k` one step forward, and leaves the rest alone. */
  lemma MoveForwardMoves<T>(s: seq<T>, e: nat, k: nat)
    requires e < k < |s|
    ensures var r := MoveForward(s, e, k);
      && |r| == |s|
      && multiset(r) == multiset(s)
      && r[k] == s[e]
      && (forall j :: 0 <= j < e ==> r[j] == s[j])
      && (forall j :: e <= j < k ==> r[j] == s[j + 1])
      && (forall j :: k < j < |s| ==> r[j] == s[j])
  {
    MoveKeepsRows(s, e, k);
  }

  /** `after` keeps the same elements, puts the element right behind the anchor and keeps the
      order of all others. */
  lemma AfterMoves<T>(s: seq<T>, a: nat, e: nat)
    requires a < |s| && e < |s|
    ensures var r := After(s, a, e);
      && |r| == |s|
      && multiset(r) == multiset(s)
      && (a == e ==> r == s)
      && (a < e ==>
        && r[a + 1] == s[e]
        && (forall j :: 0 <= j <= a ==> r[j] == s[j])
        && (forall j :: a + 1 < j <= e ==> r[j] == s[j - 1])
        && (forall j :: e < j < |s| ==> r[j] == s[j]))
      && (e < a ==>
        && r[a] == s[e]
        && (forall j :: 0 <= j < e ==> r[j] == s[j])
        && (forall j :: e <= j < a ==> r[j] == s[j + 1])
        && (forall j :: a < j < |s| ==> r[j] == s[j]))
  {
    if a < e {
      MoveBackMoves(s, a + 1, e);
    } else if e < a {
      MoveForwardMoves(s, e, a);
    }
  }

  /** `prepend` keeps the same elements, puts the element first and keeps the order of all
      others. */
  lemma PrependMoves<T>(s: seq<T>, e: nat)
    requires e < |s|
    ensures var r := Prepend(s, e);
      && |r| == |s|
      && multiset(r) == multiset(s)
      && r[0] == s[e]
      && (forall j :: 0 < j <= e ==> r[j] == s[j - 1])
      && (forall j :: e < j < |s| ==> r[j] == s[j])
  {
    MoveBackMoves(s, 0, e);
  }

  /** The first position of `x` in `s`, if any. */
  function IndexOf<T(==)>(s: seq<T>, x: T): (r: Option<nat>)
    ensures r.None? <==> x !in s
    ensures r.Some? ==> r.value < |s| && s[r.value] == x && forall j :: 0 <= j < r.value ==> s[j] != x
  {
    if |s| == 0 then None
    else if s[0] == x then Some(0)
    else match IndexOf(s[1..], x)
      case None => None
      case Some(j) => Some(j + 1)
  }

  /** The lookup loop at line 118 from row `i` on, with `el` the position found so far: every
      row carrying the tag overwrites it. */
  function Scan(trs: seq<Row>, id: nat, i: nat, el: Option<nat>): Option<nat>
    requires i <= |trs|
    decreases |trs| - i
  {
    if i == |trs| then el
    else Scan(trs, id, i + 1, if trs[i].sortId == Some(id) then Some(i) else el)
  }

  /** The loop ends on the last row carrying the tag, and on nothing when no row does. */
  lemma {:induction false} ScanFindsLast(trs: seq<Row>, id: nat, i: nat, el: Option<nat>)
    requires i <= |trs|
    requires el.Some? ==> el.value < i && trs[el.value].sortId == Some(id)
                          && forall j :: el.value < j < i ==> trs[j].sortId != Some(id)
    requires el.None? ==> forall j :: 0 <= j < i ==> trs[j].sortId != Some(id)
    ensures var r := Scan(trs, id, i, el);
      && (r.Some? ==> r.value < |trs| && trs[r.value].sortId == Some(id)
                      && forall j :: r.value < j < |trs| ==> trs[j].sortId != Some(id))
      && (r.None? ==> forall j :: 0 <= j < |trs| ==> trs[j].sortId != Some(id))
    decreases |trs| - i
  {
    if i < |trs| {
      ScanFindsLast(trs, id, i + 1, if trs[i].sortId == Some(id) then Some(i) else el);
    }
  }

  /** `for (...) if (trs[i].tableSortId === id) el = trs[i]`: a row of the snapshot carrying the
      tag (the last one, by `ScanFindsLast`), or undefined when none does. */
  function LastWithId(trs: seq<Row>, id: nat): (r: Option<Row>)
    ensures r.Some? ==> r.value in trs && r.value.sortId == Some(id)
    ensures r.None? ==> forall k :: 0 <= k < |trs| ==> trs[k].sortId != Some(id)
  {
    ScanFindsLast(trs, id, 0, None);
    match Scan(trs, id, 0, None)
    case Some(k) => Some(trs[k])
    case None => None
  }

  /** Where a row is to be moved: behind a row, at the front of the body, or nowhere because
      the header row to move behind is missing. */
  datatype Anchor = Behind(row: Row) | Front | NoHeader

  /** The choice at lines 119-127: behind the previously placed row, else behind the header row
      (the last row tagged 0) when the first row is the header, else at the front. */
  function AnchorOf(trs: seq<Row>, prev: Option<Row>, exclude: bool): (a: Anchor)
    ensures prev.Some? ==> a == Behind(prev.value)
    ensures prev.None? && !exclude ==> a == Front
    ensures prev.None? && exclude ==> (a == NoHeader <==> LastWithId(trs, 0).None?)
    ensures prev.None? && exclude && a != NoHeader ==> a == Behind(LastWithId(trs, 0).value)
  {
    if prev.Some? then Behind(prev.value)
    else if exclude then
      match LastWithId(trs, 0)
      case None => NoHeader
      case Some(header) => Behind(header)
    else Front
  }

  /** One move (`prev.after(el)`, `header.after(el)` or `tbody.prepend(el)`). `header.after`
      throws when no row is tagged 0; a missing `el` would insert the text `undefined` and is
      reported as `RowMissing`. (A row of the snapshot is always somewhere in the current list;
      the `RowMissing` for a failed position lookup is there only to keep the function total.) */
  function Place(cur: seq<Row>, anchor: Anchor, el: Option<Row>): Result<seq<Row>> {
    match anchor
    case NoHeader => Failure(HeaderRowMissing)
    case Behind(row) =>
      if el.None? then Failure(RowMissing)
      else (match (IndexOf(cur, row), IndexOf(cur, el.value))
        case (Some(a), Some(e)) => Success(After(cur, a, e))
        case _ => Failure(RowMissing))
    case Front =>
      if el.None? then Failure(RowMissing)
      else match IndexOf(cur, el.value)
        case Some(e) => Success(Prepend(cur, e))
        case None => Failure(RowMissing)
  }

  /** The body after the loop, and the exception that stopped it, if any. */
  datatype Placed = Placed(rows: seq<Row>, thrown: Option<Error>)

  /** The loop from iteration `i` on: `for (i = 0; i < data.length - 1; i++)`. The row of the last
      record is never moved. `trs` is the snapshot of the body taken before the loop. */
  function PlaceFrom(trs: seq<Row>, data: seq<Record>, exclude: bool, i: nat, cur: seq<Row>, prev: Option<Row>): Placed
    decreases |data| - i
  {
    if i + 1 >= |data| then Placed(cur, None)
    else
      var el := LastWithId(trs, data[i].id);
      match Place(cur, AnchorOf(trs, prev, exclude), el)
      case Failure(err) => Placed(cur, Some(err))
      case Success(next) => PlaceFrom(trs, data, exclude, i + 1, next, el)
  }

  /** Lines 114-130 over the body `body` and the sorted data. With fewer than two records
      nothing moves. */
  function Reconcile(body: seq<Row>, data: seq<Record>, exclude: bool): (r: Placed)
    ensures |data| <= 1 ==> r == Placed(body, None)
  {
    PlaceFrom(body, data, exclude, 0, body, None)
  }

  /** Whether the first body row is the structural header row (tag 0) rather than data. */
  function HeaderCount(body: seq<Row>, exclude: bool): nat {
    if exclude && |body| > 0 then 1 else 0
  }

  /** The tag order the loop is meant to produce: the header row, then the data in order. */
  function Want(body: seq<Row>, data: seq<Record>, exclude: bool): seq<Option<nat>> {
    (if HeaderCount(body, exclude) == 1 then [Some(0)] else []) + RecordTags(data)
  }

  /** The body and the cached data agree: the body's tags are a permutation of the header tag
      and the record ids, those are all different, and the header row is first. */
  ghost predicate Synced(body: seq<Row>, data: seq<Record>, exclude: bool) {
    && multiset(Tags(body)) == multiset(Want(body, data, exclude))
    && Unique(Want(body, data, exclude))
    && (HeaderCount(body, exclude) == 1 ==> body[0].sortId == Some(0))
  }

  /** No element occurs twice, stated from the front: the first element does not occur again,
      and neither does any later one. The same as `Distinct` (`UniqueIsDistinct`), but a proof
      that only passes it along does not see every pair of positions. */
  ghost predicate Unique<T>(s: seq<T>)
    decreases |s|
  {
    |s| == 0 || (s[0] !in s[1..] && Unique(s[1..]))
  }

  lemma {:induction false} UniqueIsDistinct<T>(s: seq<T>)
    ensures Unique(s) <==> Distinct(s)
    decreases |s|
  {
    if |s| > 0 {
      UniqueIsDistinct(s[1..]);
      if Distinct(s) {
        assert Distinct(s[1..]) by {
          forall i, j | 0 <= i < j < |s[1..]| ensures s[1..][i] != s[1..][j] {
            assert s[1..][i] == s[i + 1] && s[1..][j] == s[j + 1];
          }
        }
        assert s[0] !in s[1..] by {
          forall j | 0 <= j < |s[1..]| ensures s[1..][j] != s[0] {
            assert s[1..][j] == s[j + 1];
          }
        }
      }
      if Unique(s) {
        forall i, j | 0 <= i < j < |s| ensures s[i] != s[j] {
          assert s[j] == s[1..][j - 1];
          if i > 0 {
            assert s[i] == s[1..][i - 1];
          }
        }
      }
    }
  }

  lemma {:induction false} DistinctCount<T>(s: seq<T>, x: T)
    requires Distinct(s)
    ensures multiset(s)[x] <= 1
  {
    if |s| > 0 {
      assert s == [s[0]] + s[1..];
      assert Distinct(s[1..]) by {
        forall i, j | 0 <= i < j < |s[1..]| ensures s[1..][i] != s[1..][j] {
          assert s[1..][i] == s[i + 1] && s[1..][j] == s[j + 1];
        }
      }
      DistinctCount(s[1..], x);
      if x == s[0] {
        assert x !in s[1..] by {
          forall j | 0 <= j < |s[1..]| ensures s[1..][j] != x {
            assert s[1..][j] == s[j + 1];
          }
        }
      }
    }
  }

  lemma DuplicateCount<T>(s: seq<T>, i: nat, j: nat)
    requires i < j < |s| && s[i] == s[j]
    ensures multiset(s)[s[i]] >= 2
  {
    assert s == s[..j] + s[j..];
    assert s[i] in s[..j];
    assert s[j..][0] == s[j];
  }

  /** A permutation of a sequence without repetitions has none either. */
  lemma DistinctPermutation<T>(a: seq<T>, b: seq<T>)
    requires Distinct(a) && multiset(a) == multiset(b)
    ensures Distinct(b)
  {
    forall i, j | 0 <= i < j < |b| ensures b[i] != b[j] {
      if b[i] == b[j] {
        DuplicateCount(b, i, j);
        DistinctCount(a, b[i]);
      }
    }
  }

  /** Every wanted tag is carried by some row of a synced body. */
  lemma TagPresent(body: seq<Row>, data: seq<Record>, exclude: bool, k: nat)
    requires Synced(body, data, exclude)
    requires k < |Want(body, data, exclude)|
    ensures exists j :: 0 <= j < |body| && body[j].sortId == Want(body, data, exclude)[k]
  {
    var want := Want(body, data, exclude);
    assert want[k] in multiset(want);
    assert want[k] in Tags(body);
  }

  /** Two rows of a synced body with the same tag are the same row. */
  lemma SameTagSameRow(body: seq<Row>, data: seq<Record>, exclude: bool, x: Row, y: Row)
    requires Synced(body, data, exclude)
    requires x in body && y in body && x.sortId == y.sortId
    ensures x == y
  {
    UniqueIsDistinct(Want(body, data, exclude));
    DistinctPermutation(Want(body, data, exclude), Tags(body));
    var p :| 0 <= p < |body| && body[p] == x;
    var q :| 0 <= q < |body| && body[q] == y;
    assert Tags(body)[p] == Tags(body)[q];
  }

  /** A permutation of a synced body whose rows all but the last carry the wanted tags carries
      the wanted tags everywhere. */
  lemma LastRowFits(trs: seq<Row>, data: seq<Record>, exclude: bool, cur: seq<Row>)
    requires Synced(trs, data, exclude)
    requires multiset(cur) == multiset(trs)
    requires |cur| == |Want(trs, data, exclude)|
    requires forall k :: 0 <= k < |cur| - 1 ==> cur[k].sortId == Want(trs, data, exclude)[k]
    ensures Tags(cur) == Want(trs, data, exclude)
  {
    var want := Want(trs, data, exclude);
    if |cur| > 0 {
      var k := |cur| - 1;
      TagPresent(trs, data, exclude, k);
      var j :| 0 <= j < |trs| && trs[j].sortId == want[k];
      assert trs[j] in multiset(cur);
      var m :| 0 <= m < |cur| && cur[m] == trs[j];
      if m < k {
        UniqueAt(want, m, k);
      }
    }
  }

  /** The facts the loop keeps before iteration `i`: the rows are those of the snapshot, the
      first `h + i` carry the wanted tags, and the previously placed row is the last of them. */
  ghost predicate LoopInvariant(trs: seq<Row>, data: seq<Record>, exclude: bool, i: nat, cur: seq<Row>, prev: Option<Row>) {
    && Synced(trs, data, exclude)
    && multiset(cur) == multiset(trs)
    && |cur| == |Want(trs, data, exclude)|
    && HeaderCount(trs, exclude) + i <= |cur|
    && (forall k {:trigger cur[k]} :: 0 <= k < HeaderCount(trs, exclude) + i ==> cur[k].sortId == Want(trs, data, exclude)[k])
    && prev == if i == 0 then None else Some(cur[HeaderCount(trs, exclude) + i - 1])
  }

  /** The row looked up for record `i` exists and sits behind the placed prefix. */
  lemma RowBehindPrefix(trs: seq<Row>, data: seq<Record>, exclude: bool, i: nat, cur: seq<Row>, prev: Option<Row>)
      returns (e: nat)
    requires LoopInvariant(trs, data, exclude, i, cur, prev)
    requires i + 1 < |data|
    ensures HeaderCount(trs, exclude) + i <= e < |cur|
    ensures LastWithId(trs, data[i].id) == Some(cur[e])
    ensures IndexOf(cur, cur[e]) == Some(e)
    ensures cur[e].sortId == Want(trs, data, exclude)[HeaderCount(trs, exclude) + i]
  {
    var want := Want(trs, data, exclude);
    var k := HeaderCount(trs, exclude) + i;
    assert want[k] == Some(data[i].id);
    TagPresent(trs, data, exclude, k);
    var r := LastWithId(trs, data[i].id).value;
    assert r in multiset(cur);
    e := IndexOf(cur, r).value;
    if e < k {
      UniqueAt(want, e, k);
    }
  }

  /** Two positions of a sequence without repetitions hold different elements. */
  lemma UniqueAt<T>(s: seq<T>, p: nat, q: nat)
    requires Unique(s) && p < q < |s|
    ensures s[p] != s[q]
  {
    UniqueIsDistinct(s);
  }

  /** The previously placed row is found where the prefix ends. */
  lemma AnchorAtPrefixEnd(trs: seq<Row>, data: seq<Record>, exclude: bool, i: nat, cur: seq<Row>, prev: Option<Row>)
    requires LoopInvariant(trs, data, exclude, i, cur, prev)
    requires 0 < i < |data|
    ensures IndexOf(cur, prev.value) == Some(HeaderCount(trs, exclude) + i - 1)
  {
    var k := HeaderCount(trs, exclude) + i;
    UniqueIsDistinct(Want(trs, data, exclude));
    FirstOccurrenceInPrefix(cur, Want(trs, data, exclude), k - 1);
  }

  /** In a list whose tags agree with distinct wanted tags up to position `p`, the row at `p`
      occurs nowhere before `p`. */
  lemma FirstOccurrenceInPrefix(cur: seq<Row>, want: seq<Option<nat>>, p: nat)
    requires p < |cur| && p < |want| && Distinct(want)
    requires forall m :: 0 <= m <= p ==> cur[m].sortId == want[m]
    ensures IndexOf(cur, cur[p]) == Some(p)
  {
    var q := IndexOf(cur, cur[p]).value;
    assert cur[q].sortId == cur[p].sortId;
  }

  /** The header row (tag 0) is found at the front. */
  lemma HeaderAtFront(trs: seq<Row>, data: seq<Record>, exclude: bool, cur: seq<Row>)
    requires LoopInvariant(trs, data, exclude, 0, cur, None)
    requires HeaderCount(trs, exclude) == 1
    ensures LastWithId(trs, 0).Some?
    ensures IndexOf(cur, LastWithId(trs, 0).value) == Some(0)
  {
    TagPresent(trs, data, exclude, 0);
    var header := LastWithId(trs, 0).value;
    assert cur[0] in multiset(trs);
    SameTagSameRow(trs, data, exclude, cur[0], header);
  }

  /** Behind the previously placed row. */
  lemma PlaceBehindPrev(cur: seq<Row>, p: Row, el: Row, a: nat, e: nat)
    requires IndexOf(cur, p) == Some(a) && IndexOf(cur, el) == Some(e)
    ensures Place(cur, Behind(p), Some(el)) == Success(After(cur, a, e))
  {
  }

  /** Behind the header row. */
  lemma PlaceBehindHeader(trs: seq<Row>, cur: seq<Row>, el: Row, e: nat)
    requires LastWithId(trs, 0).Some? && IndexOf(cur, LastWithId(trs, 0).value) == Some(0)
    requires IndexOf(cur, el) == Some(e)
    ensures Place(cur, AnchorOf(trs, None, true), Some(el)) == Success(After(cur, 0, e))
  {
  }

  /** At the front of the body. */
  lemma PlaceInFront(cur: seq<Row>, el: Row, e: nat)
    requires IndexOf(cur, el) == Some(e)
    ensures Place(cur, Front, Some(el)) == Success(Prepend(cur, e))
  {
  }

  /** One iteration keeps the invariant: the row of record `i` is moved right behind the
      placed prefix. */
  lemma PlaceStep(trs: seq<Row>, data: seq<Record>, exclude: bool, i: nat, cur: seq<Row>, prev: Option<Row>)
      returns (next: seq<Row>)
    requires LoopInvariant(trs, data, exclude, i, cur, prev)
    requires i + 1 < |data|
    ensures Place(cur, AnchorOf(trs, prev, exclude), LastWithId(trs, data[i].id)) == Success(next)
    ensures LoopInvariant(trs, data, exclude, i + 1, next, LastWithId(trs, data[i].id))
  {
    if i > 0 {
      next := StepBehindPrev(trs, data, exclude, i, cur, prev);
    } else if exclude {
      next := StepBehindHeader(trs, data, exclude, i, cur, prev);
    } else {
      next := StepInFront(trs, data, exclude, i, cur, prev);
    }
  }

  lemma StepBehindPrev(trs: seq<Row>, data: seq<Record>, exclude: bool, i: nat, cur: seq<Row>, prev: Option<Row>)
      returns (next: seq<Row>)
    requires LoopInvariant(trs, data, exclude, i, cur, prev)
    requires i + 1 < |data|
    requires i > 0
    ensures Place(cur, AnchorOf(trs, prev, exclude), LastWithId(trs, data[i].id)) == Success(next)
    ensures LoopInvariant(trs, data, exclude, i + 1, next, LastWithId(trs, data[i].id))
  {
    var e := RowBehindPrefix(trs, data, exclude, i, cur, prev);
    next := MoveBehindPrev(trs, data, exclude, i, cur, prev, e);
  }

  /** Moving the row found at `e` behind the previously placed row extends the prefix. */
  lemma MoveBehindPrev(trs: seq<Row>, data: seq<Record>, exclude: bool, i: nat, cur: seq<Row>, prev: Option<Row>, e: nat)
      returns (next: seq<Row>)
    requires LoopInvariant(trs, data, exclude, i, cur, prev)
    requires 0 < i < |data|
    requires HeaderCount(trs, exclude) + i <= e < |cur| && IndexOf(cur, cur[e]) == Some(e)
    requires cur[e].sortId == Want(trs, data, exclude)[HeaderCount(trs, exclude) + i]
    ensures Place(cur, AnchorOf(trs, prev, exclude), Some(cur[e])) == Success(next)
    ensures LoopInvariant(trs, data, exclude, i + 1, next, Some(cur[e]))
  {
    var k := HeaderCount(trs, exclude) + i;
    AnchorAtPrefixEnd(trs, data, exclude, i, cur, prev);
    PlaceBehindPrev(cur, prev.value, cur[e], k - 1, e);
    next := After(cur, k - 1, e);
    AfterPrefixGrows(trs, data, exclude, i, cur, prev, e);
  }

  lemma StepBehindHeader(trs: seq<Row>, data: seq<Record>, exclude: bool, i: nat, cur: seq<Row>, prev: Option<Row>)
      returns (next: seq<Row>)
    requires LoopInvariant(trs, data, exclude, i, cur, prev)
    requires i + 1 < |data|
    requires i == 0 && exclude
    ensures Place(cur, AnchorOf(trs, prev, exclude), LastWithId(trs, data[i].id)) == Success(next)
    ensures LoopInvariant(trs, data, exclude, i + 1, next, LastWithId(trs, data[i].id))
  {
    var e := RowBehindPrefix(trs, data, exclude, i, cur, prev);
    assert |trs| > 0;
    HeaderAtFront(trs, data, exclude, cur);
    PlaceBehindHeader(trs, cur, cur[e], e);
    next := After(cur, 0, e);
    AfterPrefixGrows(trs, data, exclude, i, cur, prev, e);
  }

  /** Moving the row found at `e` right behind the last row of the placed prefix (the header row
      when nothing is placed yet) extends the prefix by it. */
  lemma AfterPrefixGrows(trs: seq<Row>, data: seq<Record>, exclude: bool, i: nat, cur: seq<Row>, prev: Option<Row>, e: nat)
    requires LoopInvariant(trs, data, exclude, i, cur, prev)
    requires 0 < HeaderCount(trs, exclude) + i <= e < |cur|
    requires cur[e].sortId == Want(trs, data, exclude)[HeaderCount(trs, exclude) + i]
    ensures LoopInvariant(trs, data, exclude, i + 1, After(cur, HeaderCount(trs, exclude) + i - 1, e), Some(cur[e]))
  {
    var a := HeaderCount(trs, exclude) + i - 1;
    AfterKeepsFront(cur, a, e);
    PrefixGrows(trs, data, exclude, i, cur, prev, After(cur, a, e), e);
  }

  /** Moving an element from behind the anchor to right behind it leaves everything up to the
      anchor in place. */
  lemma AfterKeepsFront<T>(s: seq<T>, a: nat, e: nat)
    requires a < e < |s|
    ensures |After(s, a, e)| == |s| && multiset(After(s, a, e)) == multiset(s)
    ensures After(s, a, e)[a + 1] == s[e]
    ensures forall j :: 0 <= j <= a ==> After(s, a, e)[j] == s[j]
  {
    AfterMoves(s, a, e);
  }

  lemma StepInFront(trs: seq<Row>, data: seq<Record>, exclude: bool, i: nat, cur: seq<Row>, prev: Option<Row>)
      returns (next: seq<Row>)
    requires LoopInvariant(trs, data, exclude, i, cur, prev)
    requires i + 1 < |data|
    requires i == 0 && !exclude
    ensures Place(cur, AnchorOf(trs, prev, exclude), LastWithId(trs, data[i].id)) == Success(next)
    ensures LoopInvariant(trs, data, exclude, i + 1, next, LastWithId(trs, data[i].id))
  {
    var e := RowBehindPrefix(trs, data, exclude, i, cur, prev);
    PlaceInFront(cur, cur[e], e);
    next := Prepend(cur, e);
    PrependPrefixGrows(trs, data, exclude, cur, prev, e);
  }

  /** Moving the row found at `e` to the front of a body without header row starts the prefix. */
  lemma PrependPrefixGrows(trs: seq<Row>, data: seq<Record>, exclude: bool, cur: seq<Row>, prev: Option<Row>, e: nat)
    requires LoopInvariant(trs, data, exclude, 0, cur, prev)
    requires HeaderCount(trs, exclude) == 0 && e < |cur|
    requires cur[e].sortId == Want(trs, data, exclude)[0]
    ensures LoopInvariant(trs, data, exclude, 1, Prepend(cur, e), Some(cur[e]))
  {
    PrependMoves(cur, e);
    PrefixGrows(trs, data, exclude, 0, cur, prev, Prepend(cur, e), e);
  }

  /** Moving the row found at `e` to the end of the placed prefix extends the prefix by it. */
  lemma PrefixGrows(trs: seq<Row>, data: seq<Record>, exclude: bool, i: nat, cur: seq<Row>, prev: Option<Row>, next: seq<Row>, e: nat)
    requires LoopInvariant(trs, data, exclude, i, cur, prev)
    requires HeaderCount(trs, exclude) + i <= e < |cur|
    requires cur[e].sortId == Want(trs, data, exclude)[HeaderCount(trs, exclude) + i]
    requires |next| == |cur| && multiset(next) == multiset(cur)
    requires next[HeaderCount(trs, exclude) + i] == cur[e]
    requires forall m :: 0 <= m < HeaderCount(trs, exclude) + i ==> next[m] == cur[m]
    ensures LoopInvariant(trs, data, exclude, i + 1, next, Some(cur[e]))
  {
  }

  /** The loop ended without exception, with the wanted tags. */
  ghost predicate Finishes(trs: seq<Row>, data: seq<Record>, exclude: bool, p: Placed) {
    && p.thrown.None?
    && Tags(p.rows) == Want(trs, data, exclude)
  }

  /** Whatever happens, the loop only moves rows: it ends with the rows it started with. */
  lemma {:induction false} PlaceFromKeepsRows(trs: seq<Row>, data: seq<Record>, exclude: bool, i: nat, cur: seq<Row>, prev: Option<Row>)
    ensures multiset(PlaceFrom(trs, data, exclude, i, cur, prev).rows) == multiset(cur)
    decreases |data| - i
  {
    if i + 1 < |data| {
      var el := LastWithId(trs, data[i].id);
      match Place(cur, AnchorOf(trs, prev, exclude), el)
      case Failure(_) =>
      case Success(next) =>
        PlaceKeepsRows(cur, AnchorOf(trs, prev, exclude), el);
        PlaceFromKeepsRows(trs, data, exclude, i + 1, next, el);
    }
  }

  /** One move keeps the rows. */
  lemma PlaceKeepsRows(cur: seq<Row>, anchor: Anchor, el: Option<Row>)
    ensures Place(cur, anchor, el).Success? ==> multiset(Place(cur, anchor, el).value) == multiset(cur)
  {
    match anchor
    case NoHeader =>
    case Behind(row) =>
      if el.Some? && IndexOf(cur, row).Some? && IndexOf(cur, el.value).Some? {
        AfterMoves(cur, IndexOf(cur, row).value, IndexOf(cur, el.value).value);
      }
    case Front =>
      if el.Some? && IndexOf(cur, el.value).Some? {
        PrependMoves(cur, IndexOf(cur, el.value).value);
      }
  }

  /** From any state satisfying the invariant, the rest of the loop finishes without exception
      in the wanted order. */
  lemma {:induction false} PlaceFromOrders(trs: seq<Row>, data: seq<Record>, exclude: bool, i: nat, cur: seq<Row>, prev: Option<Row>)
    requires LoopInvariant(trs, data, exclude, i, cur, prev)
    requires i == 0 || i < |data|
    ensures Finishes(trs, data, exclude, PlaceFrom(trs, data, exclude, i, cur, prev))
    decreases |data| - i
  {
    if i + 1 >= |data| {
      LoopDone(trs, data, exclude, i, cur, prev);
    } else {
      var next := StepHandsOn(trs, data, exclude, i, cur, prev);
      PlaceFromOrders(trs, data, exclude, i + 1, next, LastWithId(trs, data[i].id));
    }
  }

  /** One iteration keeps the invariant and leaves the rest of the loop to run from the moved
      body. */
  lemma StepHandsOn(trs: seq<Row>, data: seq<Record>, exclude: bool, i: nat, cur: seq<Row>, prev: Option<Row>)
      returns (next: seq<Row>)
    requires LoopInvariant(trs, data, exclude, i, cur, prev)
    requires i + 1 < |data|
    ensures LoopInvariant(trs, data, exclude, i + 1, next, LastWithId(trs, data[i].id))
    ensures PlaceFrom(trs, data, exclude, i, cur, prev) == PlaceFrom(trs, data, exclude, i + 1, next, LastWithId(trs, data[i].id))
  {
    next := PlaceStep(trs, data, exclude, i, cur, prev);
    PlaceFromUnfolds(trs, data, exclude, i, cur, prev, next);
  }

  /** When the loop condition fails, the invariant already gives the wanted order. */
  lemma LoopDone(trs: seq<Row>, data: seq<Record>, exclude: bool, i: nat, cur: seq<Row>, prev: Option<Row>)
    requires LoopInvariant(trs, data, exclude, i, cur, prev)
    requires i == 0 || i < |data|
    requires i + 1 >= |data|
    ensures PlaceFrom(trs, data, exclude, i, cur, prev) == Placed(cur, None)
    ensures Finishes(trs, data, exclude, Placed(cur, None))
  {
    LastRowFits(trs, data, exclude, cur);
  }

  /** A successful iteration hands the moved body and the placed row to the next one. */
  lemma PlaceFromUnfolds(trs: seq<Row>, data: seq<Record>, exclude: bool, i: nat, cur: seq<Row>, prev: Option<Row>, next: seq<Row>)
    requires i + 1 < |data|
    requires Place(cur, AnchorOf(trs, prev, exclude), LastWithId(trs, data[i].id)) == Success(next)
    ensures PlaceFrom(trs, data, exclude, i, cur, prev) == PlaceFrom(trs, data, exclude, i + 1, next, LastWithId(trs, data[i].id))
  {
  }

  /** After the loop the body is the header row (when the first row is the header) followed by
      the rows of the data in data order; no row was created or lost, and the header row is
      still first. */
  lemma ReconcileOrders(body: seq<Row>, data: seq<Record>, exclude: bool)
    requires Synced(body, data, exclude)
    ensures Reconcile(body, data, exclude).thrown.None?
    ensures Tags(Reconcile(body, data, exclude).rows) == Want(body, data, exclude)
    ensures multiset(Reconcile(body, data, exclude).rows) == multiset(body)
    ensures HeaderCount(body, exclude) == 1 ==> Reconcile(body, data, exclude).rows[0] == body[0]
  {
    assert |multiset(Tags(body))| == |multiset(Want(body, data, exclude))|;
    PlaceFromOrders(body, data, exclude, 0, body, None);
    PlaceFromKeepsRows(body, data, exclude, 0, body, None);
    var rows := Reconcile(body, data, exclude).rows;
    if HeaderCount(body, exclude) == 1 {
      assert rows[0] in multiset(body);
      SameTagSameRow(body, data, exclude, rows[0], body[0]);
    }
  }
}

=== FILE: sort.dfy ===
/** `status.data.sort(comparator)` (index.js:92-111). JavaScript's `Array.prototype.sort` is
    stable; the model sorts with a stable insertion sort and proves the three facts that pin the
    result down: it is a permutation, it is ordered by the comparator, and ties keep their order. */
module Sort {
  import opened Tables
  import opened Compare

  /** Every record may stay before every later one. */
  ghost predicate Sorted(s: seq<Record>, srt: Direction, col: nat) {
    forall i, j :: 0 <= i < j < |s| ==> Before(srt, col, s[i], s[j])
  }

  /** Places `x` in front of the first record it may precede, so behind every record it
      strictly follows and in front of every record it ties with. */
  function Insert(x: Record, s: seq<Record>, srt: Direction, col: nat): (r: seq<Record>)
    ensures multiset(r) == multiset{x} + multiset(s)
    ensures Sorted(s, srt, col) ==> Sorted(r, srt, col)
  {
    if |s| == 0 then [x]
    else if Before(srt, col, x, s[0]) then
      var r := [x] + s;
      assert Sorted(s, srt, col) ==> Sorted(r, srt, col) by {
        if Sorted(s, srt, col) {
          forall i, j | 0 <= i < j < |r| ensures Before(srt, col, r[i], r[j]) {
            if i == 0 && j > 1 {
              OrderIsTotalPreorder(srt, col, x, s[0], s[j - 1]);
            }
          }
        }
      }
      r
    else
      var tail := Insert(x, s[1..], srt, col);
      var r := [s[0]] + tail;
      assert s == [s[0]] + s[1..];
      assert Sorted(s, srt, col) ==> Sorted(r, srt, col) by {
        if Sorted(s, srt, col) {
          forall i, j | 0 <= i < j < |r| ensures Before(srt, col, r[i], r[j]) {
            if i == 0 {
              assert r[j] in multiset(tail);
              if r[j] == x {
                OrderIsTotalPreorder(srt, col, x, s[0], x);
              } else {
                assert r[j] in s[1..];
              }
            }
          }
        }
      }
      r
  }

  /** The sorted data: a permutation of the input, ordered by the comparator. */
  function SortRecords(s: seq<Record>, srt: Direction, col: nat): (r: seq<Record>)
    ensures multiset(r) == multiset(s)
    ensures Sorted(r, srt, col)
  {
    if |s| == 0 then []
    else
      assert s == [s[0]] + s[1..];
      Insert(s[0], SortRecords(s[1..], srt, col), srt, col)
  }

  /** The records of `s` that tie with `z`, in their order in `s`. */
  function Ties(s: seq<Record>, z: Record, srt: Direction, col: nat): seq<Record> {
    if |s| == 0 then []
    else (if Tie(srt, col, z, s[0]) then [s[0]] else []) + Ties(s[1..], z, srt, col)
  }

  /** Inserting `x` adds it to the ties of `z` in front of them when it ties, and nothing else. */
  lemma {:induction false} InsertTies(x: Record, s: seq<Record>, z: Record, srt: Direction, col: nat)
    ensures Ties(Insert(x, s, srt, col), z, srt, col)
         == (if Tie(srt, col, z, x) then [x] else []) + Ties(s, z, srt, col)
    decreases |s|, 1
  {
    if |s| == 0 {
    } else if Before(srt, col, x, s[0]) {
      assert ([x] + s)[1..] == s;
    } else {
      InsertTiesBehind(x, s, z, srt, col);
    }
  }

  /** The case of `InsertTies` where `x` goes behind the first record. */
  lemma {:induction false} InsertTiesBehind(x: Record, s: seq<Record>, z: Record, srt: Direction, col: nat)
    requires |s| > 0 && !Before(srt, col, x, s[0])
    ensures Ties(Insert(x, s, srt, col), z, srt, col)
         == (if Tie(srt, col, z, x) then [x] else []) + Ties(s, z, srt, col)
    decreases |s|, 0
  {
    var r := Insert(x, s, srt, col);
    var tail := Insert(x, s[1..], srt, col);
    var rest := Ties(s[1..], z, srt, col);
    InsertTies(x, s[1..], z, srt, col);
    assert r == [s[0]] + tail;
    assert r[1..] == tail;
    var head := if Tie(srt, col, z, s[0]) then [s[0]] else [];
    assert Ties(r, z, srt, col) == head + Ties(tail, z, srt, col);
    assert Ties(s, z, srt, col) == head + rest;
    if Tie(srt, col, z, x) {
      StrictlyBeforeDoesNotTie(srt, col, x, s[0], z);
      assert head == [];
      assert Ties(r, z, srt, col) == [x] + rest;
    } else {
      assert Ties(tail, z, srt, col) == rest;
    }
  }

  /** A record that strictly precedes `x` does not tie with anything `x` ties with. */
  lemma StrictlyBeforeDoesNotTie(srt: Direction, col: nat, x: Record, y: Record, z: Record)
    requires !Before(srt, col, x, y) && Tie(srt, col, z, x)
    ensures !Tie(srt, col, z, y)
  {
    OrderIsTotalPreorder(srt, col, z, x, y);
    OrderIsTotalPreorder(srt, col, x, z, y);
  }

  /** The sort is stable: for every record, the records tying with it keep their relative order. */
  lemma {:induction false} SortIsStable(s: seq<Record>, z: Record, srt: Direction, col: nat)
    ensures Ties(SortRecords(s, srt, col), z, srt, col) == Ties(s, z, srt, col)
  {
    if |s| > 0 {
      SortIsStable(s[1..], z, srt, col);
      InsertTies(s[0], SortRecords(s[1..], srt, col), z, srt, col);
    }
  }

  /** Ids strictly increase along the sequence, as they do in freshly built data. */
  ghost predicate IncreasingIds(s: seq<Record>) {
    forall i, j :: 0 <= i < j < |s| ==> s[i].id < s[j].id
  }

  lemma HeadsAgree(a: seq<Record>, b: seq<Record>, col: nat)
    requires IncreasingIds(a)
    requires Sorted(b, Unsorted, col)
    requires multiset(a) == multiset(b)
    requires |a| > 0
    ensures |b| > 0 && a[0] == b[0]
  {
    assert a[0] in multiset(b);
    var j :| 0 <= j < |b| && b[j] == a[0];
    assert b[0] in multiset(a);
    var i :| 0 <= i < |a| && a[i] == b[0];
    if j > 0 {
      assert Before(Unsorted, col, b[0], b[j]);
      UnsortedOrdersById(col, b[0], b[j]);
    }
    assert b[0].id <= a[0].id;
  }

  /** Past equal heads, the tails still meet the premises of `IdOrderIsUnique`. */
  lemma TailsAgree(a: seq<Record>, b: seq<Record>, col: nat)
    requires IncreasingIds(a) && Sorted(b, Unsorted, col)
    requires multiset(a) == multiset(b)
    requires |a| > 0 && |b| > 0 && a[0] == b[0]
    ensures IncreasingIds(a[1..]) && Sorted(b[1..], Unsorted, col)
    ensures multiset(a[1..]) == multiset(b[1..])
  {
    DropCommonHead(a, b);
  }

  /** Two permutations with the same first element are permutations past it. */
  lemma DropCommonHead<T>(a: seq<T>, b: seq<T>)
    requires multiset(a) == multiset(b)
    requires |a| > 0 && |b| > 0 && a[0] == b[0]
    ensures multiset(a[1..]) == multiset(b[1..])
  {
    assert a == [a[0]] + a[1..] && b == [b[0]] + b[1..];
    assert multiset(a[1..]) == multiset(a) - multiset{a[0]};
    assert multiset(b[1..]) == multiset(b) - multiset{a[0]};
  }

  /** A permutation of id-increasing data that is ordered by id is that very data. */
  lemma {:induction false} IdOrderIsUnique(a: seq<Record>, b: seq<Record>, col: nat)
    requires IncreasingIds(a)
    requires Sorted(b, Unsorted, col)
    requires multiset(a) == multiset(b)
    ensures a == b
  {
    if |a| > 0 {
      HeadsAgree(a, b, col);
      TailsAgree(a, b, col);
      IdOrderIsUnique(a[1..], b[1..], col);
      assert a == [a[0]] + a[1..] && b == [b[0]] + b[1..];
    }
  }

  /** Sorting under direction 0 restores the build order: whatever order earlier sorts left the
      records in, ordering them by id gives back the data as first built. */
  lemma RestoresBuildOrder(d: seq<Record>, built: seq<Record>, col: nat)
    requires IncreasingIds(built)
    requires multiset(d) == multiset(built)
    ensures SortRecords(d, Unsorted, col) == built
  {
    IdOrderIsUnique(built, SortRecords(d, Unsorted, col), col);
  }

  /** Sorted ascending, the records whose column value is absent form a suffix. */
  lemma AbsentLastWhenAscending(s: seq<Record>, col: nat)
    requires Sorted(s, Ascending, col)
    ensures forall i, j :: 0 <= i < j < |s| && CellAt(s[i], col).None? ==> CellAt(s[j], col).None?
  {
    forall i, j | 0 <= i < j < |s| && CellAt(s[i], col).None?
      ensures CellAt(s[j], col).None?
    {
      assert Before(Ascending, col, s[i], s[j]);
      CompareCellsMeaning(CellAt(s[i], col), CellAt(s[j], col), Ascending);
    }
  }

  /** Sorted descending, the records whose column value is absent form a prefix. */
  lemma AbsentFirstWhenDescending(s: seq<Record>, col: nat)
    requires Sorted(s, Descending, col)
    ensures forall i, j :: 0 <= i < j < |s| && CellAt(s[j], col).None? ==> CellAt(s[i], col).None?
  {
    forall i, j | 0 <= i < j < |s| && CellAt(s[j], col).None?
      ensures CellAt(s[i], col).None?
    {
      assert Before(Descending, col, s[i], s[j]);
      CompareCellsMeaning(CellAt(s[i], col), CellAt(s[j], col), Descending);
    }
  }

  /** Descending is the exact reverse polarity of ascending: a sequence is ordered descending
      exactly when its reverse is ordered ascending. */
  lemma DescendingIsReversedAscending(s: seq<Record>, col: nat)
    ensures Sorted(s, Descending, col) <==> Sorted(Reverse(s), Ascending, col)
  {
    var r := Reverse(s);
    forall i, j | 0 <= i < j < |s|
      ensures Before(Descending, col, s[i], s[j]) <==> Before(Ascending, col, r[|s| - 1 - j], r[|s| - 1 - i])
    {
      CompareCellsAntisymmetric(CellAt(s[i], col), CellAt(s[j], col), Ascending);
    }
    if Sorted(Reverse(s), Ascending, col) {
      forall i, j | 0 <= i < j < |s| ensures Before(Descending, col, s[i], s[j]) {
        assert Before(Ascending, col, r[|s| - 1 - j], r[|s| - 1 - i]);
      }
    }
  }

  function Reverse<T>(s: seq<T>): (r: seq<T>)
    ensures |r| == |s|
    ensures forall k :: 0 <= k < |s| ==> r[k] == s[|s| - 1 - k]
  {
    seq(|s|, k requires 0 <= k < |s| => s[|s| - 1 - k])
  }
}

=== FILE: tables.dfy ===
/** The state the widget keeps: DOM rows and cells, the cached row records, and the
    per-table status object the source hangs on each `<table>` element. */
module Tables {
  import opened Common
  import opened Values

  /** The sort direction `status.srt`: 0 (original order), 1 (ascending), 2 (descending).
      An unset `srt` behaves exactly like 0 and is modelled as `Unsorted`. */
  datatype Direction = Unsorted | Ascending | Descending

  /** A body cell (`td`): its rendered text and its attributes, which a cell reader may consult. */
  datatype Cell = Cell(innerText: string, attributes: map<string, string>)

  /** A body row (`tbody tr`): its `td` cells and the `tableSortId` expando, unset until the row
      data is first built. Rows are values; the reordering moves them, it never rebuilds them. */
  datatype Row = Row(sortId: Option<nat>, cells: seq<Cell>)

  /** One cached record of `status.data`: the row's build-time position and its cell values. */
  datatype Record = Record(id: nat, cells: seq<Value>)

  /** The pluggable reader installed by `setReadDataFunc`; `None` stands for `undefined`.
      The source also passes the table, which is fixed for a given build and folded into the function. */
  type CellReader = Cell -> Option<Value>

  /** `tbl.status`. An absent status object behaves like `Fresh()`: every field falsy or undefined. */
  datatype Status = Status(
    initialized: bool,
    excludeFirstRow: bool,
    srt: Direction,
    el: Option<nat>,               // column of the header cell carrying the marker
    data: Option<seq<Record>>)     // `undefined` until the first build

  function Fresh(): Status {
    Status(false, false, Unsorted, None, None)
  }

  /** One sortable table. `theadRow` and `firstRow` give the cell count of the first `thead tr`
      and of the first `tr`, if present; `handlers` counts the mousedown handlers bound per header
      column; `markers` counts the marker spans per header column; `body` is `tbody tr` in DOM order. */
  datatype Table = Table(
    theadRow: Option<nat>,
    firstRow: Option<nat>,
    handlers: multiset<nat>,
    markers: multiset<nat>,
    status: Status,
    body: seq<Row>)

  /** The table after a step, and the exception the step threw, if any. A thrown exception
      ends the handler but keeps every mutation made before it. */
  datatype Outcome = Outcome(table: Table, thrown: Option<Error>)

  /** `record[col]`: undefined when the row had fewer `td` cells than the column index. */
  function CellAt(r: Record, col: nat): Option<Value> {
    if col < |r.cells| then Some(r.cells[col]) else None
  }

  /** The `tableSortId` of every body row, in DOM order. */
  function Tags(rows: seq<Row>): (t: seq<Option<nat>>)
    ensures |t| == |rows|
    ensures forall k :: 0 <= k < |rows| ==> t[k] == rows[k].sortId
  {
    seq(|rows|, k requires 0 <= k < |rows| => rows[k].sortId)
  }

  /** The ids of the records, as row tags, in record order. */
  function RecordTags(data: seq<Record>): (t: seq<Option<nat>>)
    ensures |t| == |data|
    ensures forall k :: 0 <= k < |data| ==> t[k] == Some(data[k].id)
  {
    seq(|data|, k requires 0 <= k < |data| => Some(data[k].id))
  }

  /** No element occurs twice. */
  ghost predicate Distinct<T>(s: seq<T>) {
    forall i, j :: 0 <= i < j < |s| ==> s[i] != s[j]
  }
}

=== FILE: values.dfy ===
/** Cell values and the order the comparator uses on them. */
module Values {

  /** A cell value. The widget compares whatever it stored with JavaScript's `<` and `>`;
      the model makes the value's kind explicit: a number (read by a cell reader) or a text
      (a reader's string, or the cell's rendered text). */
  datatype Value = Num(n: int) | Text(s: string)

  /** Lexicographic order on strings, character by character, as JavaScript orders two strings. */
  predicate TextLess(a: string, b: string)
    decreases |a|
  {
    if |a| == 0 then |b| > 0
    else if |b| == 0 then false
    else if a[0] != b[0] then a[0] < b[0]
    else TextLess(a[1..], b[1..])
  }

  /** The strict order on values: numbers by magnitude, texts lexicographically, numbers before texts. */
  predicate Less(a: Value, b: Value) {
    match (a, b)
    case (Num(x), Num(y)) => x < y
    case (Num(_), Text(_)) => true
    case (Text(_), Num(_)) => false
    case (Text(x), Text(y)) => TextLess(x, y)
  }

  lemma {:induction false} TextLessIrreflexive(a: string)
    ensures !TextLess(a, a)
  {
    if |a| > 0 {
      TextLessIrreflexive(a[1..]);
    }
  }

  lemma {:induction false} TextLessAsymmetric(a: string, b: string)
    requires TextLess(a, b)
    ensures !TextLess(b, a)
  {
    if |a| > 0 && |b| > 0 && a[0] == b[0] {
      TextLessAsymmetric(a[1..], b[1..]);
    }
  }

  lemma {:induction false} TextLessTransitive(a: string, b: string, c: string)
    requires TextLess(a, b) && TextLess(b, c)
    ensures TextLess(a, c)
  {
    if |a| > 0 && |b| > 0 && |c| > 0 && a[0] == b[0] && b[0] == c[0] {
      TextLessTransitive(a[1..], b[1..], c[1..]);
    }
  }

  lemma {:induction false} TextLessTotal(a: string, b: string)
    ensures a == b || TextLess(a, b) || TextLess(b, a)
  {
    if |a| > 0 && |b| > 0 && a[0] == b[0] {
      TextLessTotal(a[1..], b[1..]);
      if a[1..] == b[1..] {
        assert a == [a[0]] + a[1..] && b == [b[0]] + b[1..];
      }
    }
  }

  /** `Less` is a strict total order: irreflexive, asymmetric, transitive and total. */
  lemma LessIsStrictTotalOrder(a: Value, b: Value, c: Value)
    ensures !Less(a, a)
    ensures Less(a, b) ==> !Less(b, a)
    ensures Less(a, b) && Less(b, c) ==> Less(a, c)
    ensures a == b || Less(a, b) || Less(b, a)
  {
    if a.Text? {
      TextLessIrreflexive(a.s);
    }
    if a.Text? && b.Text? {
      if TextLess(a.s, b.s) {
        TextLessAsymmetric(a.s, b.s);
      }
      TextLessTotal(a.s, b.s);
    }
    if a.Text? && b.Text? && c.Text? && TextLess(a.s, b.s) && TextLess(b.s, c.s) {
      TextLessTransitive(a.s, b.s, c.s);
    }
  }
}
